=== FILE: README.md ===
# quizaccess_oqylyq in Dafny

A model of the Moodle quiz access rule `quizaccess_oqylyq`. The rule
sends a quiz attempt through the Oqylyq proctoring service and covers
these parts:

- **Rule decisions.** Whether the rule applies to a quiz, and whether a
  request is blocked. A blocked request is answered with a launch button
  whose link comes from the proctoring API.
- **Form settings.** How the quiz form's `oqylyq_*` settings are
  filtered, validated, saved and deleted.
- **Access manager.** It recognises a page opened from the proctoring
  application, by iframe or by key hash.
- **Settings provider.** It holds the settings map and derives three
  things from it: allowed settings, capabilities and hide rules. It also
  runs the filter pipeline over submitted form data.
- **Link generator and link cache.** They obtain the launch URL. The
  cache keeps at most one live link per user.
- **API gateway and its command objects.** The student and group commands
  come in two copies each, under `classes/local` and `classes/oqylyq`. The
  assignment command has three files: `classes/local/assignment.php`,
  `classes/local/.assignment.php` and `classes/oqylyq/assignment.php`. The
  session command has one, `classes/local/.session.php`.

Host services are parameters of the model: the database, the clock, the
HTTP client, hashing, URL rendering and HTML output. Database tables are
values:
- the settings table is a map from quiz id to its record;
- the link table is a sequence of links.

PHP's value semantics are written out in the `Php` and `PhpObject` modules:
- loose `== 0`, `(bool)`, `(int)`, `empty()` on strings;
- `trim`, `str_replace`;
- `stdClass` as an ordered field list;
- `array_merge`.

Modules:
- `Wrappers`: `Option` and `Result`.
- `Php`, `PhpObject`: PHP values, casts, strings, JSON, objects.
- `QuizSettings`: the settings persistent (properties with defaults, `from_record`).
- `SettingsProvider`: `classes/local/settings_provider.php`.
- `AccessManager`: `classes/local/access_manager.php`.
- `QuizUrls`: `classes/local/quiz_urls.php`.
- `Commands`: the command classes under `classes/local` and `classes/oqylyq`.
- `Gate`: both `gate.php` files.
- `LinkGenerator`: `classes/local/link_generator.php`.
- `Rule`: `rule.php`.

Where the model follows the code rather than the design:
- `check_key` returns true before it compares anything, so every hash
  passes (`AccessManager.CheckKey`).
- `is_oqylyq_settings_locked` and `is_conflicting_permissions` always
  return false.
- Asking whether a name outside the settings map may be managed gives true.
  It does not fail.
- `filter_plugin_settings` is not idempotent. A second pass drops every
  key, because the first pass has already stripped the prefix
  (`SettingsProvider.FilterSettingsNotIdempotent`).
- `is_proctoring_enabled` has the declared return type `int`. A stored mode
  that is null or not an integer string is therefore a `TypeError`, which
  the model returns as `Err`.
- `link_generator.php` is in namespace `quizaccess_oqylyq\local` and names
  `oqylyq\Session` and `oqylyq\Gate`. These resolve to
  `quizaccess_oqylyq\local\oqylyq\Session` and
  `quizaccess_oqylyq\local\oqylyq\Gate`, which do not exist. `rule.php`
  names `\quizaccess_oqylyq\link_generator`, which does not exist either.
  The model takes them to mean the session command, the gateway of
  `classes/oqylyq/gate.php` and the link generator shown.

## Model

| member | source | states |
|---|---|---|
| QuizSettings.SetProperty | classes/local/quiz_settings.php:49-123 | The property set reads back as the new value and every other property is unchanged. |
| QuizSettings.FromRecordProperty | classes/local/quiz_settings.php:49-123 | Loading a record overrides exactly the declared properties the record carries. Every other property keeps its value or default. |
| QuizSettings.LoadProperty | classes/local/quiz_settings.php:49-123 | The same for any list of known properties: a property keeps its value unless it is known and carried by the record. |
| SettingsProvider.ConfigElementsShape | classes/local/settings_provider.php:310-325 | There are twelve configuration elements. They are distinct and carry the `oqylyq_` prefix, and the proctoring selector is not one of them. |
| SettingsProvider.ConfigElements | classes/local/settings_provider.php:310-325 | One element per configuration name, in order. |
| SettingsProvider.ConfigElementTypes | classes/local/settings_provider.php:310-325 | The application selector comes first, with three applications. Every other element is a yes/no selector. |
| SettingsProvider.BuildAllowedSettingsIsNames | classes/local/settings_provider.php:528-540 | The allowed settings of a subtree are exactly its setting names in pre-order. |
| SettingsProvider.AllowedSettingsByMode | classes/local/settings_provider.php:483-520 | Mode 1 allows exactly the twelve configuration elements. Any other mode allows nothing. |
| SettingsProvider.AllowedSettingsOfMapOf | classes/local/settings_provider.php:483-520 | For a map with one flat list under mode 1, that list is allowed under mode 1 and nothing under any other mode. |
| SettingsProvider.CapabilityName | classes/local/settings_provider.php:576-582 | A name gets a capability iff it is a configuration element. The capability is the prefix followed by the name. Any other name is an error naming it. |
| SettingsProvider.BuildCapabilities | classes/local/settings_provider.php:457-476 | Every capability found is the capability of its key. An error names a setting outside the elements. |
| SettingsProvider.CapabilitiesOfAbsentSetting | classes/local/settings_provider.php:457-476 | A name absent from the tree needs no capability. |
| SettingsProvider.CapabilitiesOfPresentSetting | classes/local/settings_provider.php:457-476 | A name present in the tree needs the capabilities of exactly the settings on one root-to-it path. |
| SettingsProvider.CapabilitiesOfLeaves | classes/local/settings_provider.php:457-476 | In a flat list the name alone needs its capability. An unknown listed name is an error. |
| SettingsProvider.CheckCapabilities | classes/local/settings_provider.php:430-448 | The check fails iff some needed capability is unknown to the host. Otherwise it is true iff the user holds all of them. |
| SettingsProvider.CanManageConfigSettingCases | classes/local/settings_provider.php:430-448 | A configuration element may be managed iff the user holds its capability, and it is an error when the host lacks it. Any other name may always be managed. |
| SettingsProvider.CanManageSettingCases | classes/local/settings_provider.php:430-503 | The same, for any flat settings map under mode 1. |
| SettingsProvider.IsSettingsLocked | classes/local/settings_provider.php:590-599 | Settings are never locked, because of the early return. |
| SettingsProvider.GroupByElementSpec | classes/local/settings_provider.php:550-568 | An element has an entry in the hide-rule map iff some rule is about it. The entry is the rules about it, in order. |
| SettingsProvider.RuleListSpec | classes/local/settings_provider.php:550-568 | A rule is generated iff it hides a setting unless proctoring is that setting's mode, or hides a child whose parent is 0. |
| SettingsProvider.QuizHideIfsValues | classes/local/settings_provider.php:550-568 | Exactly the twelve elements get rules, each a single rule hiding it unless proctoring is 1. |
| SettingsProvider.FilterByPrefixGet | classes/local/settings_provider.php:607-616 | A property survives iff its name starts with `oqylyq_`, and it keeps its value. |
| SettingsProvider.FilterBySettingsMapGet | classes/local/settings_provider.php:624-643 | Without a mode the object is unchanged. Otherwise the mode keeps its value, allowed settings keep theirs, and every other setting becomes null. |
| SettingsProvider.StripAllPrefixesGet | classes/local/settings_provider.php:664-671 | When every name carries the prefix, property `k` of the result is property `oqylyq_k` of the input. |
| SettingsProvider.StripAllPrefixesCollision | classes/local/settings_provider.php:664-671 | Without the prefix on every name, two properties can collide and the later one wins. |
| SettingsProvider.FilterSettingsGet | classes/local/settings_provider.php:651-656 | Property `k` of the filtered form is the form's `oqylyq_k`. With a mode set, it is nulled unless the mode allows it. |
| SettingsProvider.FilterPluginSettingsGet | classes/local/settings_provider.php:651-656 | Under mode 1 the twelve elements keep their values. Under any other mode every setting except the mode is null. |
| SettingsProvider.FilterSettingsNotIdempotent | classes/local/settings_provider.php:651-671 | Filtering a filtered object drops everything, so the filter is not idempotent. |
| SettingsProvider.AddPrefixProperties | classes/local/settings_provider.php:679-684 | Adding the prefix is idempotent and leaves prefixed names alone. Stripping undoes it on unprefixed names. |
| AccessManager.ThisPageUrl | classes/local/access_manager.php:103-110 | The page URL, or the site root when it is unknown or empty. |
| AccessManager.CheckKey | classes/local/access_manager.php:146-149 | Every hash is accepted. |
| AccessManager.ReceivedHashKey | classes/local/access_manager.php:156-162 | A key is received iff the `hash` parameter is present. |
| AccessManager.ValidateHashKeysCases | classes/local/access_manager.php:77-97 | A request is valid iff it is on an attempt page, carries the hash cookie, or carries the hash parameter. The cookie is touched exactly in the last case. It holds the trimmed hash for 3600 seconds, unless the hash trims to nothing, in which case the cookie is deleted. |
| AccessManager.SetCookie | classes/local/access_manager.php:94 | Setting a cookie to the empty value deletes it. Any other value is kept with the expiry given. |
| AccessManager.RememberedHashPasses | classes/local/access_manager.php:77-97 | When the first visit set the cookie rather than deleting it, a later request carrying that cookie passes without the parameter. |
| AccessManager.IsProctoringEnabled | classes/local/access_manager.php:169-175 | Without settings the mode is 0. Otherwise it is the stored mode coerced to int, and an integer mode never fails. |
| AccessManager.IsProctoringEnabledAgreesWithSave | classes/local/access_manager.php:169-175 | The reported mode is non-zero iff the stored mode is not loosely 0. |
| QuizUrls.FindLink | classes/local/quiz_urls.php:73-86 | A link is found iff the table has one for the user, quiz and module, and the one found matches. |
| QuizUrls.CheckExists | classes/local/quiz_urls.php:73-96 | A link returned matches and has not expired. With no matching link nothing is returned. |
| QuizUrls.RemoveUserLinks | classes/local/quiz_urls.php:101-104 | Exactly the links of other users remain. |
| QuizUrls.CreateLink | classes/local/quiz_urls.php:98-116 | The user's old links are gone, the new link is added, and other users' links are kept. |
| QuizUrls.CreateLinkKeepsOnePerUser | classes/local/quiz_urls.php:98-116 | Creating a link keeps at most one link per user. |
| QuizUrls.CheckExistsComplete | classes/local/quiz_urls.php:73-96 | With one link per user, nothing is found iff there is no matching link or it has expired. |
| QuizUrls.CheckAfterCreate | classes/local/quiz_urls.php:73-116 | Over any table, a link just created is found again until its lifetime runs out. |
| QuizUrls.CreateLinkOtherUsers | classes/local/quiz_urls.php:98-116 | Over any table, creating a link does not change what is found for any other user. |
| QuizUrls.CheckExistsMonotone | classes/local/quiz_urls.php:88-95 | A link live now was live at every earlier time. |
| Commands.NewCommand | classes/local/student.php:32-34 | Every command keeps its data except the student command, which starts empty. |
| Commands.RequestUrlInjective | classes/local/.session.php:36-38 | Each kind has its own endpoint, and no two kinds share one. |
| Commands.RequestDataRoundTrip | classes/local/group.php:44-64 | The data a command sends is the data it was built with, except for a student with non-empty data. |
| Commands.RequestMethod | classes/oqylyq/student.php:39-41 | Every command is sent with POST. |
| Commands.RequestHeaders | classes/local/group.php:80-82 | No command adds headers. |
| Gate.BuildRequest | classes/local/gate.php:48-67 | The request has the command's method, query and payload. Its URL is the API URL followed by the command's path. |
| Gate.MergeHeadersGet | classes/oqylyq/gate.php:12-31 | The fixed headers win: the API key in X-Authorization and JSON in Accept and Content-Type. Every other header passes through. |
| Gate.BuildRequestHeaders | classes/local/gate.php:48-67 | The request carries exactly the three fixed headers. |
| LinkGenerator.Flags | classes/local/link_generator.php:79-91 | Each switch is the boolean cast of the setting of the same name, in payload order. |
| LinkGenerator.GetLink | classes/local/link_generator.php:32-110 | A live link is reused. A failure leaves the link table unchanged or without the user's links. Other users' links never change. |
| LinkGenerator.StoreResponse | classes/local/link_generator.php:104-109 | The call succeeds iff the API answers with a scalar `session_url` whose string form survives PARAM_TEXT cleaning. That string is returned, and it replaces the user's links with one fresh link. A failed call leaves the table as it was. Any other answer fails after the user's links are removed. |
| LinkGenerator.NumericSessionUrl | classes/local/link_generator.php:104-109 | A numeric `session_url` is stored and returned as its decimal text, which reads back as the number. |
| LinkGenerator.GetLinkCaches | classes/local/link_generator.php:36-41 | Over any link table: after a link is obtained, a lookup within the hour finds that URL, created now for an hour. If the table held one link per user, it still does. |
| LinkGenerator.GetLinkOnMiss | classes/local/link_generator.php:43-109 | Without a live link, a missing course module gives CourseModuleMissing and changes nothing. Otherwise the outcome is the client's answer to the session request. The link succeeds iff that answer carries a session URL that text cleaning leaves unchanged, and the URL returned is that one. |
| LinkGenerator.GetLinkKeepsOnePerUser | classes/local/link_generator.php:32-110 | Getting a link keeps at most one link per user. |
| LinkGenerator.CachedLinkSkipsGateway | classes/local/link_generator.php:36-41 | With a live link the HTTP client is not consulted. |
| LinkGenerator.SessionRequestShape | classes/local/link_generator.php:105 | The session is requested by one POST to the session endpoint with the payload. |
| LinkGenerator.SessionPayloadAt | classes/local/link_generator.php:51-102 | A path into the student, group or assignment entry of the payload reads that part. |
| LinkGenerator.ExternalUrlPlain | classes/local/link_generator.php:47-48 | Undoing the `&amp;` escaping of a rendered URL gives back the plain site URL of the rebuilt path. |
| LinkGenerator.PayloadStudent | classes/local/link_generator.php:52-61 | The student is keyed by the user id, and the password is the MD5 of the id followed by the username. |
| LinkGenerator.PayloadGroup | classes/local/link_generator.php:63-67 | The group is the course module, named after the quiz and the module id. |
| LinkGenerator.PayloadAssignment | classes/local/link_generator.php:69-76 | The assignment is external, keyed by the course module, with the application and the boolean proctoring mode. |
| LinkGenerator.PayloadSwitches | classes/local/link_generator.php:78-91 | Each of the eleven switches is the boolean cast of its setting. |
| LinkGenerator.PayloadUrls | classes/local/link_generator.php:47-93 | With `&amp;` rendering, the start and exit URLs sent are the plain site URLs. The start URL carries the page hash. The exit URL has no trailing `&`, because `moodle_url` rebuilds the query from its parameters. |
| LinkGenerator.HashCurrentUrlFallback | classes/local/link_generator.php:117-129 | The hash is of the page URL when it is known, and of the site root when it is null or empty. |
| LinkGenerator.PayloadAuthKey | classes/local/link_generator.php:131-143 | The session carries the one-time auth key: the MD5 of the current time followed by the user id. |
| Rule.MakeRule | rule.php:69-77 | The rule exists iff the quiz's mode is non-zero. There is no rule without settings, and a malformed mode is an error. |
| Rule.DisplayButtons | rule.php:275-283 | Empty buttons give the empty string. Otherwise the buttons are wrapped in a div. |
| Rule.PreventAccess | rule.php:233-252 | A cookie is set only outside Chrome. A message is returned only to a request that fails the check. |
| Rule.PreventAccessWhenDisabled | rule.php:233-252 | With proctoring off nothing is blocked, set or requested. |
| Rule.PreventAccessWhenEnabled | rule.php:233-252 | With proctoring on, a request passes iff it is in an iframe (Chrome) or valid by hash (elsewhere). A passing request leaves the links alone. |
| Rule.BlockedRequestReusesLink | rule.php:233-252 | Over any link table, a second blocked request within the hour gets the same answer from the cached link. |
| Rule.MergeErrorsGet | rule.php:128-132 | Element `oqylyq_n` gets the error of property `n`, and every other form error is kept. |
| Rule.ValidateSettingsFormFields | rule.php:100-108 | A user who cannot configure the plugin gets the errors back unchanged. |
| Rule.ValidateSettingsFormFieldsGet | rule.php:100-135 | For a user who can configure, each record error lands on its form element and nothing else changes. |
| Rule.SavedRecordProperties | rule.php:149-161 | The record built holds the effective mode and both ids, and over an existing record it keeps that record's id. |
| Rule.PersistOutcome | rule.php:163-168 | A record whose mode is not loosely 0 is validated. If valid it is stored, a new one under the database id. If invalid the save raises `invalid_persistent_exception` and stores nothing. With a loosely-0 mode, a record with a truthy id is removed and one without is left alone, with no validation. |
| Rule.SaveRecordOutcome | rule.php:149-168 | Saving fails iff the effective mode is not loosely 0 and the record built fails validation. A valid record with such a mode is kept, with the mode, the ids and the right id. With a loosely-0 mode an existing record is removed and a new one is not stored. |
| Rule.SaveSettings | rule.php:144-169 | Saving fails iff the course module is missing, or the record to be saved has a mode that is not loosely 0 and fails validation (`invalid_persistent_exception`). No other quiz's record changes. |
| Rule.FormModeNullsId | rule.php:144-169 | When the form sets a mode, its `oqylyq_id` reaches the filtered settings only as null. So a new record is created, and a zero mode deletes nothing. |
| Rule.SaveSettingsOutcome | rule.php:144-169 | End to end, the form's `oqylyq_proctoring` (else the stored mode, else 1) decides whether a record is kept, and the record holds it. With a mode that is not loosely 0, saving succeeds iff the record passes validation. |
| Rule.EffectiveModeOfForm | rule.php:149-161 | The mode saved is the form's `oqylyq_proctoring` whenever the form has one. |
| Rule.SaveThenMode | rule.php:163-168 | After a successful save, whenever the stored mode reads as an integer, the access manager reports a non-zero mode iff the saved mode is not loosely 0. |
| Rule.DeleteSettings | rule.php:178-184 | The quiz's record is gone and every other record is unchanged. |

## Left out

- The quiz form UI is not modelled, because it is form building with no
  logic beyond the settings map and the hide rules, which are modelled:
  - `add_settings_form_fields` and the element helpers of
    `settings_provider.php` (`insert_element`, `add_help_button`,
    `set_default`, `set_type`, `freeze_element`, `remove_element`,
    `add_oqylyq_*`, `hide_oqylyq_elements`, `lock_oqylyq_elements`);
  - `get_proctoring_options`, `get_oqylyq_config_element_types` and
    `get_oqylyq_config_element_defaults`.
- `get_settings_sql` and `description` are not modelled. They are SQL text
  and language strings.
- The privacy provider and the language pack are not modelled. They hold
  no rule logic.
- The persistent's `validate()` and `get_errors()` are a parameter of
  `Rule.ValidateSettingsFormFields`. The same parameter decides whether
  `save()` raises `invalid_persistent_exception` in `Rule.SaveSettings`.
  What the validation checks for each property type is not modelled. The
  PARAM_TEXT cleaning that a link's URL must survive is a parameter of
  `LinkGenerator.StoreResponse`. Other PARAM_* cleaning is not modelled.
- The HTTP client, hashing (`hash('sha256')`, `md5`), `moodle_url::out`,
  `html_writer` and `single_button` are parameters. Their results are not
  modelled.
- `authkey::factory` is not modelled. `get_auth_key` calls it when the
  `auth_oqylyq` plugin is installed, to register the key. The model
  assumes the call returns normally. If it threw, `get_link` would fail
  before calling the API.
- `time()`, the database and the current user are parameters. The
  settings table is a map keyed by quiz id, with the new row id supplied
  by the caller.
- The exception thrown when a gateway call fails or no usable session URL
  comes back is modelled as an error result. In the second case the user's
  links have already been removed when it is raised.
- LinkGenerator.StoreResponse: the decoded answer has no floats, so a float
  `session_url` is not modelled. An answer whose top level is a JSON string
  is treated as one without `session_url`. PHP's string offset on it is not
  modelled.
- Capability checks against a context are reduced to the set of
  capabilities the user holds and the set the host knows.
- The DOCUMENT_URI list is taken as written. Its third entry is the
  summary path repeated twice.
- Rule.SaveRecordOutcome: this lemma assumes the filtered settings carry no
  `id`, which holds for every form without an `oqylyq_id` field
  (`Rule.FilteredFormHasNoId`). It does not describe a form that supplies
  one.
- AccessManager.IsProctoringEnabled: float strings and floats coerced to
  int are not modelled, because settings values are integers or strings.
- Php.LooseEqualsZero and Php.StringToInt read only decimal integer
  strings as numbers. PHP also reads float and exponent strings by value
  (`"0.0" == 0`, `(int)"1e3"` is 1000), and caps `(int)` at 64 bits. These
  are not modelled, because PHP converts them through floating point. The
  mode these functions are applied to is assumed to be an int or an integer
  string: the form element is PARAM_INT and so is the `proctoring` property.
- Rule.PersistOutcome and Rule.SaveSettings key the settings table by quiz
  id. PHP's `save()` and `delete()` act on the record's own `id` row
  instead. The two differ only for a new quiz whose filtered settings carry
  a truthy `id`, which takes a form with an `oqylyq_id` and no mode
  (`Rule.FormModeNullsId`). PHP then updates or deletes that row, which may
  belong to another quiz. The model stores the record under the quiz, or
  leaves the table alone. Rows keyed by their own id are not modelled.
- AccessManager.Request: request parameters and cookies are strings. An
  array-valued `hash` parameter (`?hash[]=x`) makes `trim()` throw a
  TypeError in PHP 8. That error is not modelled.
- Rule.PersistOutcome, Rule.SaveRecordOutcome and Rule.SaveSettingsOutcome
  assume an int or integer-string mode. For a mode of `"0.0"` PHP deletes
  the record, but the model keeps it.
- SettingsProvider.FilterBySettingsMapGet and
  SettingsProvider.FilterPluginSettingsGet assume an int or integer-string
  mode. For a mode of `"1e3"` PHP's `(int)` gives 1000 and allows nothing,
  but the model reads 1 and allows the mode-1 settings.

=== FILE: access_manager.dfy ===
/** The access manager: decides from the incoming request whether the quiz
    page was opened from the proctoring application, and reports the quiz's
    proctoring mode from its stored settings. The request's server variables,
    cookies and parameters are passed in as maps; the cookie it sets is
    returned instead of being sent. */
module AccessManager {
  import opened Wrappers
  import opened Php
  import opened QuizSettings
  import SettingsProvider

  /** The request parameter carrying the application's key hash. */
  const HashParameter: string := "hash"
  /** The cookie that remembers a received hash. */
  const HashCookieName: string := "proctoring_oqylyq_hash"
  /** Seconds the remembered hash lives. */
  const HashCookieLifetime: int := 3600
  /** Quiz pages that are reached from inside an attempt and need no hash. */
  const HashFreeUris: seq<string> :=
    [ "/mod/quiz/attempt.php", "/mod/quiz/startattempt.php", "/mod/quiz/summary.php/mod/quiz/summary.php" ]

  /** What the access manager reads of a request: server variables, cookies
      and request parameters. */
  datatype Request = Request(server: map<string, string>, cookies: map<string, string>, params: map<string, string>)

  /** What a response asks of the browser about one cookie: to keep it with
      a value until `expires`, or to delete it. */
  datatype Cookie = Cookie(name: string, value: string, expires: int) | Deleted(name: string)

  /** PHP's setcookie: an empty value is sent as a deletion of the cookie,
      whatever the expiry asked for; any other value is kept as given. */
  function SetCookie(name: string, value: string, expires: int): (r: Cookie)
    ensures r.name == name
    ensures r.Deleted? <==> value == ""
    ensures r.Cookie? ==> r.value == value && r.expires == expires
  {
    if value == "" then Deleted(name) else Cookie(name, value, expires)
  }

  /** The verdict of validate_hash_keys and the cookie it sets on the way. */
  datatype HashCheck = HashCheck(valid: bool, setCookie: Option<Cookie>)

  /** has_fetch_sec_iframe, which validate_iframe_parameters returns as is:
      the browser declares the page is loaded into an iframe. */
  predicate HasFetchSecIframe(req: Request) {
    "HTTP_SEC_FETCH_DEST" in req.server && req.server["HTTP_SEC_FETCH_DEST"] == "iframe"
  }

  /** get_this_page_url: the full URL of the page, falling back to the site
      root when it is unknown (null, or "" which equals null loosely). */
  function ThisPageUrl(fullMe: Option<string>, wwwroot: string): (r: string)
    ensures r == wwwroot || (fullMe.Some? && r == fullMe.value)
    ensures fullMe.Some? && fullMe.value != "" ==> r == fullMe.value
    ensures fullMe.None? || fullMe.value == "" ==> r == wwwroot
  {
    if fullMe.None? || fullMe.value == "" then wwwroot else fullMe.value
  }

  /** check_key as written: it returns true before comparing the hash with
      the SHA-256 of the page URL, so every hash passes. */
  function CheckKey(hash: string): (r: bool)
    ensures r
  {
    true
  }

  /** get_received_hash_key: the trimmed `hash` parameter, if any. */
  function ReceivedHashKey(req: Request): (r: Option<string>)
    ensures r.Some? <==> HashParameter in req.params
  {
    if HashParameter in req.params then Some(Trim(req.params[HashParameter])) else None
  }

  /** The page is one of the attempt pages that need no hash. */
  predicate OnHashFreePage(req: Request) {
    "DOCUMENT_URI" in req.server && req.server["DOCUMENT_URI"] in HashFreeUris
  }

  /** validate_hash_keys: attempt pages pass; otherwise a remembered hash is
      checked; otherwise a received hash is remembered for an hour and
      checked (a hash that trims to nothing deletes the cookie instead); with
      neither the request fails. */
  function ValidateHashKeys(req: Request, now: int): (r: HashCheck)
    ensures r.setCookie.Some? ==> r.setCookie.value.name == HashCookieName
  {
    if OnHashFreePage(req) then HashCheck(true, None)
    else if HashCookieName in req.cookies then HashCheck(CheckKey(req.cookies[HashCookieName]), None)
    else match ReceivedHashKey(req)
      case None => HashCheck(false, None)
      case Some(hash) => HashCheck(CheckKey(hash), Some(SetCookie(HashCookieName, hash, now + HashCookieLifetime)))
  }

  /** Because every key passes, a request is accepted exactly when it is on
      an attempt page, carries the cookie, or carries the parameter; the
      cookie is touched exactly in the last case: it holds the trimmed hash
      for an hour, unless the hash trims to nothing, when it is deleted and
      so nothing is remembered. */
  lemma ValidateHashKeysCases(req: Request, now: int)
    ensures ValidateHashKeys(req, now).valid <==>
      OnHashFreePage(req) || HashCookieName in req.cookies || HashParameter in req.params
    ensures ValidateHashKeys(req, now).setCookie.Some? <==>
      !OnHashFreePage(req) && HashCookieName !in req.cookies && HashParameter in req.params
    ensures ValidateHashKeys(req, now).setCookie.Some? && Trim(req.params[HashParameter]) != "" ==>
      ValidateHashKeys(req, now).setCookie.value ==
        Cookie(HashCookieName, Trim(req.params[HashParameter]), now + HashCookieLifetime)
    ensures ValidateHashKeys(req, now).setCookie.Some? && Trim(req.params[HashParameter]) == "" ==>
      ValidateHashKeys(req, now).setCookie.value == Deleted(HashCookieName)
  {
  }

  /** The cookie set on the first visit lets a later request through even
      without the parameter, and it already holds a trimmed value. */
  lemma RememberedHashPasses(req: Request, now: int, later: Request, laterNow: int)
    requires ValidateHashKeys(req, now).setCookie.Some? && ValidateHashKeys(req, now).setCookie.value.Cookie?
    requires var c := ValidateHashKeys(req, now).setCookie.value;
      HashCookieName in later.cookies && later.cookies[HashCookieName] == c.value
    ensures ValidateHashKeys(later, laterNow) == HashCheck(true, None)
    ensures Trim(later.cookies[HashCookieName]) == later.cookies[HashCookieName]
  {
    TrimIdempotent(req.params[HashParameter]);
  }

  /** is_proctoring_enabled: 0 without a settings record, otherwise the
      stored mode coerced to the declared int return type; a stored value
      that is null or not an integer string is a type error. */
  function IsProctoringEnabled(settings: Option<Persistent>): (r: Result<int, string>)
    ensures settings.None? ==> r == Ok(SettingsProvider.ProctoringDisabled)
    ensures settings.Some? && r.Ok? ==> r.value == IntCast(Property(settings.value, "proctoring"))
    ensures settings.Some? && Property(settings.value, "proctoring").IntVal? ==> r.Ok?
  {
    match settings
    case None => Ok(SettingsProvider.ProctoringDisabled)
    case Some(p) =>
      match Property(p, "proctoring")
      case IntVal(i) => Ok(i)
      case StrVal(s) => if IsIntegerString(s) then Ok(StringToInt(s)) else Err("TypeError")
      case Null => Err("TypeError")
  }

  /** The mode reported is non-zero exactly when the settings record would
      be kept by the save logic's loose `!= 0` test. */
  lemma IsProctoringEnabledAgreesWithSave(settings: Persistent)
    requires IsProctoringEnabled(Some(settings)).Ok?
    ensures IsProctoringEnabled(Some(settings)).value != 0 <==> !LooseEqualsZero(Property(settings, "proctoring"))
  {
  }
}

=== FILE: commands.dfy ===
/** The request objects sent to the proctoring API. Each kind fixes its
    endpoint; all of them POST their payload as JSON with no query string and
    no headers of their own. The student command drops the data it is given.
    The plugin carries two copies of these classes, one per namespace, with
    identical behaviour; one model covers both. */
module Commands {
  import opened Php

  datatype Kind = Student | Group | Assignment | Session

  /** A command object: its kind and the payload it keeps. */
  datatype Command = Command(kind: Kind, payload: Json)

  /** The constructors: every kind keeps its data except the student
      command, which always starts from an empty array. */
  function NewCommand(kind: Kind, data: Json): (c: Command)
    ensures c.kind == kind
    ensures kind != Student ==> c.payload == data
    ensures kind == Student ==> c.payload == JObj([])
  {
    Command(kind, if kind == Student then JObj([]) else data)
  }

  /** The endpoint path of each kind. */
  function RequestUrl(c: Command): (r: string)
    ensures StartsWith(r, "/")
  {
    match c.kind
    case Student => "/students"
    case Group => "/groups"
    case Assignment => "/assignments"
    case Session => "/external-session/assignment.json"
  }

  function RequestData(c: Command): Json {
    c.payload
  }

  /** No command adds query parameters. */
  function RequestQuery(c: Command): (r: seq<(string, string)>)
    ensures |r| == 0
  {
    []
  }

  /** No command adds headers of its own. */
  function RequestHeaders(c: Command): (r: seq<(string, string)>)
    ensures |r| == 0
  {
    []
  }

  /** Every command is sent with POST. */
  function RequestMethod(c: Command): (r: string)
    ensures r == "POST"
  {
    "POST"
  }

  /** The endpoint identifies the kind: distinct kinds never share a path. */
  lemma RequestUrlInjective(a: Command, b: Command)
    ensures RequestUrl(a) == RequestUrl(b) <==> a.kind == b.kind
  {
    if a.kind != b.kind {
      assert RequestUrl(a)[1] != RequestUrl(b)[1];
    }
  }

  /** The payload sent is the data the command was built with, except for
      the student command, which always sends an empty object. */
  lemma RequestDataRoundTrip(kind: Kind, data: Json)
    ensures RequestData(NewCommand(kind, data)) == data <==> kind != Student || data == JObj([])
  {
  }
}

=== FILE: gate.dfy ===
/** The API gateway: turns a command into one HTTP request against the
    configured API and returns the decoded JSON body. The plugin carries two
    copies of the gateway, one per namespace, with identical behaviour. The
    HTTP client itself is a parameter of the model. */
module Gate {
  import opened Wrappers
  import opened Php
  import opened PhpObject
  import opened Commands

  /** What the HTTP client is asked to send. Headers are a string-keyed
      array; query parameters are name/value pairs. */
  datatype HttpRequest = HttpRequest(verb: string, url: string, headers: Object, query: seq<(string, string)>, json: Json)

  /** The client's answer: the body decoded as JSON (`JNull` when it is not
      JSON), or the exception it threw. */
  datatype Transport = Transport(send: HttpRequest -> Result<Json, string>)

  /** The plugin's configuration read by the gateway; a value that is not set
      reads as "" once concatenated. */
  datatype ApiConfig = ApiConfig(apiUrl: string, apiKey: string)

  /** The headers the gateway always sets. */
  function FixedHeaders(apiKey: string): Object {
    [ Field("Accept", StrVal("application/json")),
      Field("X-Authorization", StrVal(apiKey)),
      Field("Content-Type", StrVal("application/json")) ]
  }

  /** A command's own headers as a string-keyed array. */
  function HeaderObject(headers: seq<(string, string)>): Object {
    if |headers| == 0 then [] else Set(HeaderObject(headers[..|headers| - 1]), headers[|headers| - 1].0, StrVal(headers[|headers| - 1].1))
  }

  /** The headers sent: a command's own headers with the fixed ones merged
      over them. */
  function MergeHeaders(own: Object, apiKey: string): Object {
    ArrayMerge(own, FixedHeaders(apiKey))
  }

  /** The request for a command: its method, the API base URL followed by the
      command's path, the merged headers, its query and its payload. */
  function BuildRequest(config: ApiConfig, c: Command): (r: HttpRequest)
    ensures r.verb == RequestMethod(c) && r.query == RequestQuery(c) && r.json == RequestData(c)
    ensures r.url == config.apiUrl + RequestUrl(c)
    ensures r.headers == MergeHeaders(HeaderObject(RequestHeaders(c)), config.apiKey)
  {
    HttpRequest(RequestMethod(c), config.apiUrl + RequestUrl(c),
                MergeHeaders(HeaderObject(RequestHeaders(c)), config.apiKey),
                RequestQuery(c), RequestData(c))
  }

  /** The fixed headers always win over a command's own: the API key goes out
      in X-Authorization and JSON is both sent and accepted; every other
      header of the command passes through unchanged. */
  lemma MergeHeadersGet(own: Object, apiKey: string, k: string)
    ensures Get(MergeHeaders(own, apiKey), k) ==
      if k == "X-Authorization" then Some(StrVal(apiKey))
      else if k == "Accept" || k == "Content-Type" then Some(StrVal("application/json"))
      else Get(own, k)
  {
    var fixed := FixedHeaders(apiKey);
    assert Names(fixed) == ["Accept", "X-Authorization", "Content-Type"] by {
      assert fixed[1..][1..][1..] == [];
    }
    assert "Accept"[0] != "X-Authorization"[0] && "Accept"[0] != "Content-Type"[0] && "X-Authorization"[0] != "Content-Type"[0];
    assert UniqueNames(fixed) by {
      assert fixed[1..][1..][1..] == [];
      assert UniqueNames(fixed[1..][1..]);
      assert Names(fixed[1..]) == ["X-Authorization", "Content-Type"];
      assert UniqueNames(fixed[1..]);
    }
    ArrayMergeGet(own, fixed, k);
  }

  /** Since commands add no headers, the request carries exactly the three
      fixed ones. */
  lemma BuildRequestHeaders(config: ApiConfig, c: Command, k: string)
    ensures Get(BuildRequest(config, c).headers, k) ==
      if k == "X-Authorization" then Some(StrVal(config.apiKey))
      else if k == "Accept" || k == "Content-Type" then Some(StrVal("application/json"))
      else None
  {
    MergeHeadersGet(HeaderObject(RequestHeaders(c)), config.apiKey, k);
  }

  /** make: send the request and return the decoded body, or fail with the
      client's exception. */
  function Make(config: ApiConfig, c: Command, client: Transport): Result<Json, string> {
    client.send(BuildRequest(config, c))
  }
}

=== FILE: link_generator.dfy ===
/** The link generator: returns the proctoring-session URL for the current
    user and quiz, reusing a live cached link or else asking the API to open
    a session and caching the URL it returns for an hour. The clock, the
    hash functions, the URL renderer, the course-module lookup and the HTTP
    client are parameters. */
module LinkGenerator {
  import opened Wrappers
  import opened Php
  import opened QuizSettings
  import opened QuizUrls
  import opened Commands
  import opened Gate
  import AccessManager

  /** The fields of the current user the payload uses. */
  datatype User = User(id: int, username: string, firstname: string, lastname: string, email: string)

  /** The quiz row: its id, course module id and name. */
  datatype Quiz = Quiz(id: int, cmid: int, name: string)

  /** What get_link reads from its surroundings. `urlOut` renders a local
      path as `moodle_url::out()` does; `cleanText` is
      `clean_param($s, PARAM_TEXT)`, which a stored URL must survive
      unchanged; `courseModuleExists` is the lookup that throws on a missing
      course module. */
  datatype Env = Env(
    now: int,
    fullMe: Option<string>,
    wwwroot: string,
    sha256: string -> string,
    md5: string -> string,
    urlOut: string -> string,
    cleanText: string -> string,
    courseModuleExists: int -> bool,
    api: ApiConfig,
    client: Transport)

  datatype LinkError =
    | CourseModuleMissing        // get_coursemodule_from_id with MUST_EXIST
    | GatewayFailed(message: string)
    | NoSessionUrl               // the session_url is missing, null or an array; the link row fails validation
    | InvalidSessionUrl          // PARAM_TEXT cleaning changes the session_url; the link row fails validation

  /** The URL returned, or the exception raised, with the link table after
      the call. */
  datatype LinkOutcome = LinkOutcome(url: Result<string, LinkError>, store: Store)

  /** get_hash_current_url: SHA-256 of the current page URL. */
  function HashCurrentUrl(env: Env): string {
    env.sha256(AccessManager.ThisPageUrl(env.fullMe, env.wwwroot))
  }

  /** The hash is of the page URL when it is known, and of the site root
      when it is null or empty (both equal null loosely). */
  lemma HashCurrentUrlFallback(env: Env)
    ensures env.fullMe.Some? && env.fullMe.value != "" ==> HashCurrentUrl(env) == env.sha256(env.fullMe.value)
    ensures env.fullMe.None? || env.fullMe.value == "" ==> HashCurrentUrl(env) == env.sha256(env.wwwroot)
  {
  }

  /** get_auth_key: MD5 of the current time followed by the user id. The
      registration of the key with the companion authentication plugin is
      not part of this model. */
  function AuthKey(env: Env, user: User): string {
    env.md5(IntToString(env.now) + IntToString(user.id))
  }

  /** The local path of the quiz view page that the application opens. */
  function StartPath(cmid: int, hash: string): string {
    "/mod/quiz/view.php?id=" + IntToString(cmid) + "&forceview=1&hash=" + hash
  }

  /** The local path the application returns to, as get_link writes it,
      with a trailing `&`. */
  function ExitPath(cmid: int): string {
    "/mod/quiz/view.php?id=" + IntToString(cmid) + "&forceview=1&"
  }

  /** The exit path as `moodle_url` rebuilds it from the parameters it
      parsed: the empty segment after the trailing `&` names no parameter
      and is dropped. */
  function RenderedExitPath(cmid: int): (r: string)
    ensures r + "&" == ExitPath(cmid)
  {
    "/mod/quiz/view.php?id=" + IntToString(cmid) + "&forceview=1"
  }

  /** A rendered URL with its `&amp;` separators turned back into `&`. */
  function ExternalUrl(env: Env, path: string): string {
    StrReplace("&amp;", "&", env.urlOut(path))
  }

  /** The proctoring switches, each the boolean cast of its setting. */
  function Flags(names: seq<string>, settings: Persistent): (r: seq<(string, Json)>)
    ensures |r| == |names|
    ensures forall i :: 0 <= i < |names| ==> r[i] == (names[i], JBool(BoolCast(Property(settings, names[i]))))
  {
    seq(|names|, i requires 0 <= i < |names| => (names[i], JBool(BoolCast(Property(settings, names[i])))))
  }

  function StudentPart(env: Env, user: User): Json {
    JObj([ ("external_id", JInt(user.id)),
           ("user", JObj([ ("firstname", JStr(user.firstname)),
                           ("lastname", JStr(user.lastname)),
                           ("email", JStr(user.email)),
                           ("password", JStr(env.md5(IntToString(user.id) + user.username))) ])) ])
  }

  function GroupPart(quiz: Quiz): Json {
    JObj([ ("external_id", JInt(quiz.cmid)),
           ("name", JStr(quiz.name + " - " + IntToString(quiz.cmid))),
           ("description", JStr("Auto-generated group for moodle")) ])
  }

  /** The assignment part, given the rendered start and exit URLs. */
  function AssignmentPart(quiz: Quiz, settings: Persistent, startUrl: string, exitUrl: string): Json {
    JObj([ ("type", JStr("external")),
           ("application", ValueToJson(Property(settings, "application"))),
           ("name", JStr(quiz.name)),
           ("external_id", JInt(quiz.cmid)),
           ("external_url", JStr(startUrl)),
           ("is_proctoring", JBool(BoolCast(Property(settings, "proctoring")))),
           ("settings", JObj([ ("proctoring_settings", JObj(Flags(ToggleNames, settings))),
                               ("exit_url", JStr(exitUrl)) ])) ])
  }

  /** The assignment part names its type and identifies the course module. */
  lemma AssignmentIds(quiz: Quiz, settings: Persistent, startUrl: string, exitUrl: string)
    ensures At(AssignmentPart(quiz, settings, startUrl, exitUrl), ["type"]) == Some(JStr("external"))
    ensures At(AssignmentPart(quiz, settings, startUrl, exitUrl), ["external_id"]) == Some(JInt(quiz.cmid))
  {
    var a := AssignmentPart(quiz, settings, startUrl, exitUrl);
    AtField(a.fields, 0, "type", []);
    AtField(a.fields, 3, "external_id", []);
  }

  /** The assignment part carries the application and the proctoring mode. */
  lemma AssignmentMode(quiz: Quiz, settings: Persistent, startUrl: string, exitUrl: string)
    ensures At(AssignmentPart(quiz, settings, startUrl, exitUrl), ["application"]) ==
      Some(ValueToJson(Property(settings, "application")))
    ensures At(AssignmentPart(quiz, settings, startUrl, exitUrl), ["is_proctoring"]) ==
      Some(JBool(BoolCast(Property(settings, "proctoring"))))
  {
    var a := AssignmentPart(quiz, settings, startUrl, exitUrl);
    AtField(a.fields, 1, "application", []);
    AtField(a.fields, 5, "is_proctoring", []);
  }

  /** The assignment part carries the start and exit URLs it is given. */
  lemma AssignmentUrls(quiz: Quiz, settings: Persistent, startUrl: string, exitUrl: string)
    ensures At(AssignmentPart(quiz, settings, startUrl, exitUrl), ["external_url"]) == Some(JStr(startUrl))
    ensures At(AssignmentPart(quiz, settings, startUrl, exitUrl), ["settings", "exit_url"]) == Some(JStr(exitUrl))
  {
    var a := AssignmentPart(quiz, settings, startUrl, exitUrl);
    AtField(a.fields, 4, "external_url", []);
    AtField(a.fields, 6, "settings", ["exit_url"]);
    AtField(a.fields[6].1.fields, 1, "exit_url", []);
  }

  /** The assignment part carries each switch under its own name. */
  lemma AssignmentSwitch(quiz: Quiz, settings: Persistent, startUrl: string, exitUrl: string, i: nat)
    requires i < |ToggleNames|
    ensures At(AssignmentPart(quiz, settings, startUrl, exitUrl), ["settings", "proctoring_settings", ToggleNames[i]]) ==
      Some(JBool(BoolCast(Property(settings, ToggleNames[i]))))
  {
    var a := AssignmentPart(quiz, settings, startUrl, exitUrl);
    var n := ToggleNames[i];
    AtField(a.fields, 6, "settings", ["proctoring_settings", n]);
    AtField(a.fields[6].1.fields, 0, "proctoring_settings", [n]);
    ToggleNamesDistinct();
    AtField(Flags(ToggleNames, settings), i, n, []);
  }

  /** The start URL the application opens, as rendered. */
  function StartUrl(env: Env, quiz: Quiz): string {
    ExternalUrl(env, StartPath(quiz.cmid, HashCurrentUrl(env)))
  }

  /** The exit URL, as rendered. */
  function ExitUrl(env: Env, quiz: Quiz): string {
    ExternalUrl(env, ExitPath(quiz.cmid))
  }

  /** The shape of the session payload around its four parts. */
  function SessionPayload(student: Json, group: Json, assignment: Json, authKey: string): Json {
    JObj([ ("student", student),
           ("group", group),
           ("assignment", assignment),
           ("session_data", JObj([("query", JObj([("authkey", JStr(authKey))]))])) ])
  }

  /** The session payload of get_link. */
  function Payload(env: Env, user: User, quiz: Quiz, settings: Persistent): Json {
    SessionPayload(StudentPart(env, user), GroupPart(quiz),
                   AssignmentPart(quiz, settings, StartUrl(env, quiz), ExitUrl(env, quiz)),
                   AuthKey(env, user))
  }

  /** A path into the payload below one of its parts is a path into that part. */
  lemma SessionPayloadAt(student: Json, group: Json, assignment: Json, authKey: string, rest: seq<string>)
    ensures At(SessionPayload(student, group, assignment, authKey), ["student"] + rest) == At(student, rest)
    ensures At(SessionPayload(student, group, assignment, authKey), ["group"] + rest) == At(group, rest)
    ensures At(SessionPayload(student, group, assignment, authKey), ["assignment"] + rest) == At(assignment, rest)
  {
    var fields := SessionPayload(student, group, assignment, authKey).fields;
    AtField(fields, 0, "student", rest);
    AtField(fields, 1, "group", rest);
    AtField(fields, 2, "assignment", rest);
  }

  /** The payload's session data carries the auth key it is given. */
  lemma SessionPayloadAuthKey(student: Json, group: Json, assignment: Json, authKey: string)
    ensures At(SessionPayload(student, group, assignment, authKey), ["session_data", "query", "authkey"]) == Some(JStr(authKey))
  {
    var fields := SessionPayload(student, group, assignment, authKey).fields;
    var sd := fields[3].1;
    AtField(fields, 3, "session_data", ["query", "authkey"]);
    AtField(sd.fields, 0, "query", ["authkey"]);
    AtField(sd.fields[0].1.fields, 0, "authkey", []);
  }

  /** A renderer that writes the site root followed by the rebuilt path
      with `&` escaped gives back, once unescaped, the plain absolute URL. */
  lemma ExternalUrlPlain(env: Env, path: string, rendered: string)
    requires env.urlOut(path) == EscapeAmp(env.wwwroot + rendered)
    ensures ExternalUrl(env, path) == env.wwwroot + rendered
  {
    UnescapeEscapeAmp(env.wwwroot + rendered);
  }

  /** The request the gateway sends to open a session. */
  function SessionRequest(env: Env, user: User, quiz: Quiz, settings: Persistent): HttpRequest {
    BuildRequest(env.api, NewCommand(Session, Payload(env, user, quiz, settings)))
  }

  /** get_link: a live cached link is returned as is; otherwise the course
      module must exist, the API is asked for a session, and the session URL
      it answers with replaces the user's cached links for an hour. */
  function GetLink(env: Env, user: User, quiz: Quiz, settings: Persistent, store: Store): (r: LinkOutcome)
    ensures CheckExists(store, user.id, quiz.id, quiz.cmid, env.now).Some? ==>
      r == LinkOutcome(Ok(CheckExists(store, user.id, quiz.id, quiz.cmid, env.now).value.url), store)
    ensures CheckExists(store, user.id, quiz.id, quiz.cmid, env.now).None? && r.url.Ok? ==>
      r.store == CreateLink(store, user.id, quiz.id, quiz.cmid, r.url.value, LinkLifetime, env.now)
    ensures r.url.Err? ==> r.store == store || r.store == RemoveUserLinks(store, user.id)
    ensures forall l: Link :: l.userid != user.id ==> (l in r.store <==> l in store)
  {
    match CheckExists(store, user.id, quiz.id, quiz.cmid, env.now)
    case Some(l) => LinkOutcome(Ok(l.url), store)
    case None =>
      if !env.courseModuleExists(quiz.cmid) then LinkOutcome(Err(CourseModuleMissing), store)
      else StoreResponse(store, user, quiz, env.now, env.cleanText, Make(env.api, NewCommand(Session, Payload(env, user, quiz, settings)), env.client))
  }

  /** The `session_url` of an answer as the text the link row would hold:
      a scalar coerced to a string, None when it is missing, null or an
      array. */
  function SessionUrlText(answer: Json): Option<string> {
    match At(answer, ["session_url"])
    case Some(v) => TextOf(v)
    case None => None
  }

  /** The end of get_link once the API has answered: createLink removes the
      user's cached links, then stores the session URL for an hour, and
      get_link returns it coerced to a string. The row fails validation, after
      the removal, when the URL is missing, null, an array, or changed by
      PARAM_TEXT cleaning; a failed call changes nothing. */
  function StoreResponse(store: Store, user: User, quiz: Quiz, now: int, cleanText: string -> string, response: Result<Json, string>): (r: LinkOutcome)
    ensures r.url.Ok? <==>
      response.Ok? && SessionUrlText(response.value).Some? && cleanText(SessionUrlText(response.value).value) == SessionUrlText(response.value).value
    ensures r.url.Ok? ==> r.url.value == SessionUrlText(response.value).value
    ensures r.url.Ok? ==> r.store == CreateLink(store, user.id, quiz.id, quiz.cmid, r.url.value, LinkLifetime, now)
    ensures response.Err? ==> r == LinkOutcome(Err(GatewayFailed(response.error)), store)
    ensures r.url.Err? && response.Ok? ==> r.store == RemoveUserLinks(store, user.id)
  {
    match response
    case Err(e) => LinkOutcome(Err(GatewayFailed(e)), store)
    case Ok(answer) =>
      match SessionUrlText(answer)
      case None => LinkOutcome(Err(NoSessionUrl), RemoveUserLinks(store, user.id))
      case Some(url) =>
        if cleanText(url) == url then
          LinkOutcome(Ok(url), CreateLink(store, user.id, quiz.id, quiz.cmid, url, LinkLifetime, now))
        else LinkOutcome(Err(InvalidSessionUrl), RemoveUserLinks(store, user.id))
  }

  /** A numeric session URL is stored and returned as its decimal text, which
      reads back as the number. */
  lemma NumericSessionUrl(store: Store, user: User, quiz: Quiz, now: int, cleanText: string -> string, answer: Json, n: int)
    requires At(answer, ["session_url"]) == Some(JInt(n))
    requires cleanText(IntToString(n)) == IntToString(n)
    ensures var r := StoreResponse(store, user, quiz, now, cleanText, Ok(answer));
      r.url.Ok? && StringToInt(r.url.value) == n
      && r.store == CreateLink(store, user.id, quiz.id, quiz.cmid, IntToString(n), LinkLifetime, now)
  {
  }

  /** After a successful call the user has a live link to the URL returned:
      the cached one, or a fresh one created now that lives an hour, for any
      later read within that hour. */
  lemma GetLinkCaches(env: Env, user: User, quiz: Quiz, settings: Persistent, store: Store, later: int)
    requires env.now <= later <= env.now + LinkLifetime
    requires CheckExists(store, user.id, quiz.id, quiz.cmid, env.now).None?
    ensures var r := GetLink(env, user, quiz, settings, store);
      r.url.Ok? ==>
        && (OneLinkPerUser(store) ==> OneLinkPerUser(r.store))
        && CheckExists(r.store, user.id, quiz.id, quiz.cmid, later) ==
             Some(Link(user.id, quiz.id, quiz.cmid, r.url.value, LinkLifetime, env.now))
  {
    var r := GetLink(env, user, quiz, settings, store);
    if r.url.Ok? {
      var url := r.url.value;
      if OneLinkPerUser(store) {
        CreateLinkKeepsOnePerUser(store, user.id, quiz.id, quiz.cmid, url, LinkLifetime, env.now);
      }
      CheckAfterCreate(store, user.id, quiz.id, quiz.cmid, url, LinkLifetime, env.now, later);
    }
  }

  /** Without a live cached link, get_link stops with an error when the
      course module is missing; otherwise its outcome is the API's answer to
      the session request, stored: the link succeeds exactly when the answer
      carries a session URL that survives text cleaning, and is that URL. */
  lemma GetLinkOnMiss(env: Env, user: User, quiz: Quiz, settings: Persistent, store: Store)
    requires CheckExists(store, user.id, quiz.id, quiz.cmid, env.now).None?
    ensures !env.courseModuleExists(quiz.cmid) ==>
      GetLink(env, user, quiz, settings, store) == LinkOutcome(Err(CourseModuleMissing), store)
    ensures env.courseModuleExists(quiz.cmid) ==>
      GetLink(env, user, quiz, settings, store) ==
        StoreResponse(store, user, quiz, env.now, env.cleanText, env.client.send(SessionRequest(env, user, quiz, settings)))
    ensures env.courseModuleExists(quiz.cmid) ==>
      var answer := env.client.send(SessionRequest(env, user, quiz, settings));
      var r := GetLink(env, user, quiz, settings, store);
      && (r.url.Ok? <==>
            answer.Ok? && SessionUrlText(answer.value).Some?
            && env.cleanText(SessionUrlText(answer.value).value) == SessionUrlText(answer.value).value)
      && (r.url.Ok? ==> r.url.value == SessionUrlText(answer.value).value)
  {
    SessionRequestShape(env, user, quiz, settings);
  }

  /** Every call keeps the table at one link per user. */
  lemma GetLinkKeepsOnePerUser(env: Env, user: User, quiz: Quiz, settings: Persistent, store: Store)
    requires OneLinkPerUser(store)
    ensures OneLinkPerUser(GetLink(env, user, quiz, settings, store).store)
  {
    var r := GetLink(env, user, quiz, settings, store);
    if r.url.Ok? && r.store != store {
      var url := r.url.value;
      CreateLinkKeepsOnePerUser(store, user.id, quiz.id, quiz.cmid, url, LinkLifetime, env.now);
    } else if r.store != store {
      RemoveUserLinksKeepsOnePerUser(store, user.id);
    }
  }

  /** A live cached link makes the API irrelevant: the answer does not
      depend on the HTTP client at all. */
  lemma CachedLinkSkipsGateway(env: Env, user: User, quiz: Quiz, settings: Persistent, store: Store, other: Transport)
    requires CheckExists(store, user.id, quiz.id, quiz.cmid, env.now).Some?
    ensures GetLink(env.(client := other), user, quiz, settings, store) == GetLink(env, user, quiz, settings, store)
  {
  }

  /** The session is opened with a POST of the payload, as JSON, to the
      session endpoint of the configured API, with the API key attached. */
  lemma SessionRequestShape(env: Env, user: User, quiz: Quiz, settings: Persistent)
    ensures var q := SessionRequest(env, user, quiz, settings);
      && q.verb == "POST"
      && q.url == env.api.apiUrl + "/external-session/assignment.json"
      && q.json == Payload(env, user, quiz, settings)
      && q.query == []
      && PhpObject.Get(q.headers, "X-Authorization") == Some(StrVal(env.api.apiKey))
    ensures Make(env.api, NewCommand(Session, Payload(env, user, quiz, settings)), env.client) ==
      env.client.send(SessionRequest(env, user, quiz, settings))
  {
    BuildRequestHeaders(env.api, NewCommand(Session, Payload(env, user, quiz, settings)), "X-Authorization");
  }

  /** The student part carries the user id and, as password, the MD5 of the
      id followed by the username. */
  lemma StudentFields(env: Env, user: User)
    ensures At(StudentPart(env, user), ["external_id"]) == Some(JInt(user.id))
    ensures At(StudentPart(env, user), ["user", "password"]) == Some(JStr(env.md5(IntToString(user.id) + user.username)))
  {
    var st := StudentPart(env, user);
    AtField(st.fields, 0, "external_id", []);
    AtField(st.fields, 1, "user", ["password"]);
    AtField(st.fields[1].1.fields, 3, "password", []);
  }

  /** The student is identified by the user id. */
  lemma PayloadStudent(env: Env, user: User, quiz: Quiz, settings: Persistent)
    ensures At(Payload(env, user, quiz, settings), ["student", "external_id"]) == Some(JInt(user.id))
    ensures At(Payload(env, user, quiz, settings), ["student", "user", "password"]) ==
      Some(JStr(env.md5(IntToString(user.id) + user.username)))
  {
    var a := AssignmentPart(quiz, settings, StartUrl(env, quiz), ExitUrl(env, quiz));
    SessionPayloadAt(StudentPart(env, user), GroupPart(quiz), a, AuthKey(env, user), ["external_id"]);
    SessionPayloadAt(StudentPart(env, user), GroupPart(quiz), a, AuthKey(env, user), ["user", "password"]);
    StudentFields(env, user);
  }

  /** The group part is keyed by the course module and named after the quiz
      and the module id. */
  lemma GroupFields(quiz: Quiz)
    ensures At(GroupPart(quiz), ["external_id"]) == Some(JInt(quiz.cmid))
    ensures At(GroupPart(quiz), ["name"]) == Some(JStr(quiz.name + " - " + IntToString(quiz.cmid)))
  {
    AtField(GroupPart(quiz).fields, 0, "external_id", []);
    AtField(GroupPart(quiz).fields, 1, "name", []);
  }

  /** The group is identified by the course module and named after the
      quiz and its course module. */
  lemma PayloadGroup(env: Env, user: User, quiz: Quiz, settings: Persistent)
    ensures At(Payload(env, user, quiz, settings), ["group", "external_id"]) == Some(JInt(quiz.cmid))
    ensures At(Payload(env, user, quiz, settings), ["group", "name"]) == Some(JStr(quiz.name + " - " + IntToString(quiz.cmid)))
  {
    var a := AssignmentPart(quiz, settings, StartUrl(env, quiz), ExitUrl(env, quiz));
    SessionPayloadAt(StudentPart(env, user), GroupPart(quiz), a, AuthKey(env, user), ["external_id"]);
    SessionPayloadAt(StudentPart(env, user), GroupPart(quiz), a, AuthKey(env, user), ["name"]);
    GroupFields(quiz);
  }

  /** The assignment is an external one identified by the course module;
      it carries the application as stored and the proctoring mode as a
      boolean. */
  lemma PayloadAssignment(env: Env, user: User, quiz: Quiz, settings: Persistent)
    ensures var p := Payload(env, user, quiz, settings);
      && At(p, ["assignment", "type"]) == Some(JStr("external"))
      && At(p, ["assignment", "external_id"]) == Some(JInt(quiz.cmid))
      && At(p, ["assignment", "application"]) == Some(ValueToJson(Property(settings, "application")))
      && At(p, ["assignment", "is_proctoring"]) == Some(JBool(BoolCast(Property(settings, "proctoring"))))
  {
    var start, exit := StartUrl(env, quiz), ExitUrl(env, quiz);
    var a := AssignmentPart(quiz, settings, start, exit);
    AssignmentIds(quiz, settings, start, exit);
    AssignmentMode(quiz, settings, start, exit);
    SessionPayloadAt(StudentPart(env, user), GroupPart(quiz), a, AuthKey(env, user), ["type"]);
    SessionPayloadAt(StudentPart(env, user), GroupPart(quiz), a, AuthKey(env, user), ["external_id"]);
    SessionPayloadAt(StudentPart(env, user), GroupPart(quiz), a, AuthKey(env, user), ["application"]);
    SessionPayloadAt(StudentPart(env, user), GroupPart(quiz), a, AuthKey(env, user), ["is_proctoring"]);
  }

  /** Each of the eleven switches is the boolean cast of the setting of the
      same name. */
  lemma PayloadSwitches(env: Env, user: User, quiz: Quiz, settings: Persistent, i: nat)
    requires i < |ToggleNames|
    ensures At(Payload(env, user, quiz, settings), ["assignment", "settings", "proctoring_settings", ToggleNames[i]]) ==
      Some(JBool(BoolCast(Property(settings, ToggleNames[i]))))
  {
    var start, exit := StartUrl(env, quiz), ExitUrl(env, quiz);
    var a := AssignmentPart(quiz, settings, start, exit);
    AssignmentSwitch(quiz, settings, start, exit, i);
    SessionPayloadAt(StudentPart(env, user), GroupPart(quiz), a, AuthKey(env, user), ["settings", "proctoring_settings", ToggleNames[i]]);
  }

  lemma ToggleNamesDistinct()
    ensures forall i, j :: 0 <= i < j < |ToggleNames| ==> ToggleNames[i] != ToggleNames[j]
  {
  }

  /** The session carries the one-time auth key: the MD5 of the current time
      followed by the user id. */
  lemma PayloadAuthKey(env: Env, user: User, quiz: Quiz, settings: Persistent)
    ensures At(Payload(env, user, quiz, settings), ["session_data", "query", "authkey"]) ==
      Some(JStr(env.md5(IntToString(env.now) + IntToString(user.id))))
  {
    var a := AssignmentPart(quiz, settings, StartUrl(env, quiz), ExitUrl(env, quiz));
    SessionPayloadAuthKey(StudentPart(env, user), GroupPart(quiz), a, AuthKey(env, user));
  }

  /** When the renderer writes the site root followed by the rebuilt path
      with `&` escaped, the payload's URLs are the plain absolute URLs: the
      start URL carries the hash of the current page, the exit URL none and
      no trailing `&`. */
  lemma PayloadUrls(env: Env, user: User, quiz: Quiz, settings: Persistent)
    requires env.urlOut(StartPath(quiz.cmid, HashCurrentUrl(env))) == EscapeAmp(env.wwwroot + StartPath(quiz.cmid, HashCurrentUrl(env)))
    requires env.urlOut(ExitPath(quiz.cmid)) == EscapeAmp(env.wwwroot + RenderedExitPath(quiz.cmid))
    ensures At(Payload(env, user, quiz, settings), ["assignment", "external_url"]) ==
      Some(JStr(env.wwwroot + StartPath(quiz.cmid, HashCurrentUrl(env))))
    ensures At(Payload(env, user, quiz, settings), ["assignment", "settings", "exit_url"]) ==
      Some(JStr(env.wwwroot + RenderedExitPath(quiz.cmid)))
  {
    var start, exit := StartUrl(env, quiz), ExitUrl(env, quiz);
    var a := AssignmentPart(quiz, settings, start, exit);
    ExternalUrlPlain(env, StartPath(quiz.cmid, HashCurrentUrl(env)), StartPath(quiz.cmid, HashCurrentUrl(env)));
    ExternalUrlPlain(env, ExitPath(quiz.cmid), RenderedExitPath(quiz.cmid));
    AssignmentUrls(quiz, settings, start, exit);
    SessionPayloadAt(StudentPart(env, user), GroupPart(quiz), a, AuthKey(env, user), ["external_url"]);
    SessionPayloadAt(StudentPart(env, user), GroupPart(quiz), a, AuthKey(env, user), ["settings", "exit_url"]);
  }
}

=== FILE: php.dfy ===
/** The slice of PHP value semantics the plugin relies on: scalar form and
    database values, `strpos($s, $p) === 0`, `trim`, `sprintf('%d')`, the
    `(int)` and `(bool)` casts, loose comparison with `0`, `empty()` on a
    string, `str_replace`, and the nested arrays that are JSON-encoded for the
    proctoring API. Integers are unbounded (PHP's are 64-bit). */
module Php {
  import opened Wrappers

  /** A scalar value held by a form field, a request or a database column. */
  datatype Value = Null | IntVal(i: int) | StrVal(s: string)

  /** `strpos($s, $prefix) === 0`. */
  predicate StartsWith(s: string, prefix: string) {
    |prefix| <= |s| && s[..|prefix|] == prefix
  }

  // ---------------------------------------------------------------------
  // trim()

  /** The characters `trim` removes by default: " \t\n\r\0\x0B". */
  predicate IsTrimmed(c: char) {
    c == ' ' || c == '\t' || c == '\n' || c == '\r' || c == '\0' || c == '\U{0B}'
  }

  function TrimLeft(s: string): (r: string)
    ensures |r| <= |s| && r == s[|s| - |r|..]
    ensures forall i :: 0 <= i < |s| - |r| ==> IsTrimmed(s[i])
    ensures |r| > 0 ==> !IsTrimmed(r[0])
  {
    if |s| > 0 && IsTrimmed(s[0]) then TrimLeft(s[1..]) else s
  }

  function TrimRight(s: string): (r: string)
    ensures |r| <= |s| && r == s[..|r|]
    ensures forall i :: |r| <= i < |s| ==> IsTrimmed(s[i])
    ensures |r| > 0 ==> !IsTrimmed(r[|r| - 1])
  {
    if |s| > 0 && IsTrimmed(s[|s| - 1]) then TrimRight(s[..|s| - 1]) else s
  }

  /** Number of whitespace characters at the head of `s`. */
  function LeadingSpace(s: string): (n: nat)
    ensures n <= |s|
    ensures forall k :: 0 <= k < n ==> IsTrimmed(s[k])
    ensures n < |s| ==> !IsTrimmed(s[n])
  {
    |s| - |TrimLeft(s)|
  }

  /** PHP `trim($s)`: the whitespace run at each end is removed and nothing
      else; the result is empty exactly when `s` is all whitespace. */
  function Trim(s: string): (r: string)
    ensures LeadingSpace(s) + |r| <= |s|
    ensures r == s[LeadingSpace(s)..LeadingSpace(s) + |r|]
    ensures forall k :: LeadingSpace(s) + |r| <= k < |s| ==> IsTrimmed(s[k])
    ensures |r| > 0 ==> !IsTrimmed(r[0]) && !IsTrimmed(r[|r| - 1])
  {
    TrimRight(TrimLeft(s))
  }

  /** The trimmed value is empty exactly when the input is all whitespace. */
  lemma TrimEmpty(s: string)
    ensures Trim(s) == "" <==> forall k :: 0 <= k < |s| ==> IsTrimmed(s[k])
  {
  }

  /** Trimming twice is trimming once. */
  lemma TrimIdempotent(s: string)
    ensures Trim(Trim(s)) == Trim(s)
  {
    var t := Trim(s);
    assert TrimLeft(t) == t;
    assert TrimRight(t) == t;
  }

  // ---------------------------------------------------------------------
  // Decimal integers: sprintf('%d') and the (int) cast of a string

  predicate IsDigit(c: char) {
    '0' <= c <= '9'
  }

  predicate AllDigits(s: string) {
    forall i :: 0 <= i < |s| ==> IsDigit(s[i])
  }

  function DigitChar(d: nat): (c: char)
    requires d < 10
    ensures IsDigit(c)
  {
    ('0' as int + d) as char
  }

  /** Decimal digits of `n`, without leading zeros. */
  function NatToString(n: nat): (r: string)
    ensures |r| > 0 && AllDigits(r)
    decreases n
  {
    if n < 10 then [DigitChar(n)] else NatToString(n / 10) + [DigitChar(n % 10)]
  }

  /** `sprintf('%d', $i)`. */
  function IntToString(i: int): string {
    if i < 0 then "-" + NatToString(-i) else NatToString(i)
  }

  /** The number a run of decimal digits denotes. */
  function DigitsValue(s: string): nat
    requires AllDigits(s)
  {
    if |s| == 0 then 0 else DigitsValue(s[..|s| - 1]) * 10 + (s[|s| - 1] as int - '0' as int)
  }

  /** Length of the longest prefix of `s` made of decimal digits. */
  function DigitPrefixLength(s: string): (n: nat)
    ensures n <= |s| && AllDigits(s[..n])
    ensures n < |s| ==> !IsDigit(s[n])
  {
    if |s| > 0 && IsDigit(s[0]) then
      var n := 1 + DigitPrefixLength(s[1..]);
      assert s[..n] == [s[0]] + s[1..][..n - 1];
      n
    else 0
  }

  /** The whitespace PHP skips before a numeric string: " \t\n\r\v\f". */
  predicate IsNumericSpace(c: char) {
    c == ' ' || c == '\t' || c == '\n' || c == '\r' || c == '\U{0B}' || c == '\U{0C}'
  }

  function SkipSpace(s: string): (r: string)
    ensures |r| <= |s| && r == s[|s| - |r|..]
    ensures |r| > 0 ==> !IsNumericSpace(r[0])
  {
    if |s| > 0 && IsNumericSpace(s[0]) then SkipSpace(s[1..]) else s
  }

  /** Value of the digit run at the head of `s` (0 when there is none). */
  function LeadingDigitsValue(s: string): nat {
    DigitsValue(s[..DigitPrefixLength(s)])
  }

  /** `(int) $s` of an integer string: leading whitespace, an optional sign,
      then the longest run of decimal digits; 0 when there are no digits. A
      fraction or exponent after the digits is ignored, and the value is not
      capped at 64 bits. */
  function StringToInt(s: string): int {
    var t := SkipSpace(s);
    if |t| > 0 && t[0] == '-' then -(LeadingDigitsValue(t[1..]) as int)
    else if |t| > 0 && t[0] == '+' then LeadingDigitsValue(t[1..])
    else LeadingDigitsValue(t)
  }

  lemma {:induction false} DigitsValueOfNatToString(n: nat)
    ensures DigitsValue(NatToString(n)) == n
    decreases n
  {
    var r := NatToString(n);
    if n >= 10 {
      DigitsValueOfNatToString(n / 10);
      assert r[..|r| - 1] == NatToString(n / 10);
    }
  }

  lemma DigitPrefixOfDigits(s: string)
    requires AllDigits(s)
    ensures DigitPrefixLength(s) == |s|
  {
  }

  lemma LeadingDigitsOfNatToString(n: nat)
    ensures LeadingDigitsValue(NatToString(n)) == n
  {
    var d := NatToString(n);
    DigitsValueOfNatToString(n);
    DigitPrefixOfDigits(d);
    assert d[..|d|] == d;
  }

  /** `(int) sprintf('%d', $i) == $i`: the integer cast reads back exactly the
      decimal rendering. */
  lemma IntToStringRoundTrip(i: int)
    ensures StringToInt(IntToString(i)) == i
  {
    if i < 0 {
      var d := NatToString(-i);
      var s := "-" + d;
      assert SkipSpace(s) == s;
      assert s[1..] == d;
      LeadingDigitsOfNatToString(-i);
    } else {
      var d := NatToString(i);
      assert IsDigit(d[0]);
      assert SkipSpace(d) == d;
      LeadingDigitsOfNatToString(i);
    }
  }

  // ---------------------------------------------------------------------
  // Casts and loose comparison

  /** `(int) $v`. */
  function IntCast(v: Value): int {
    match v
    case Null => 0
    case IntVal(i) => i
    case StrVal(s) => StringToInt(s)
  }

  /** `(bool) $v`: null, 0, "" and "0" are false. */
  predicate BoolCast(v: Value) {
    match v
    case Null => false
    case IntVal(i) => i != 0
    case StrVal(s) => s != "" && s != "0"
  }

  /** A decimal integer string in PHP 8's sense: optional surrounding
      whitespace, an optional sign, at least one digit. */
  predicate IsIntegerString(s: string) {
    var t := SkipSpace(s);
    var u := if |t| > 0 && (t[0] == '-' || t[0] == '+') then t[1..] else t;
    var n := DigitPrefixLength(u);
    n > 0 && forall k :: n <= k < |u| ==> IsNumericSpace(u[k])
  }

  /** `$v == 0` under PHP 8 loose comparison: null equals 0, a decimal
      integer string is compared by value, any other string is compared as
      text with "0". Float and exponent strings, which PHP also compares by
      value, fall in the last case here. */
  predicate LooseEqualsZero(v: Value) {
    match v
    case Null => true
    case IntVal(i) => i == 0
    case StrVal(s) => if IsIntegerString(s) then StringToInt(s) == 0 else s == "0"
  }

  /** `empty($s)` for a string: "" and "0" are empty. */
  predicate EmptyString(s: string) {
    s == "" || s == "0"
  }

  // ---------------------------------------------------------------------
  // str_replace

  /** `str_replace($search, $replace, $subject)`: a left-to-right scan that
      replaces non-overlapping occurrences; an empty search changes nothing. */
  function StrReplace(search: string, replace: string, subject: string): string
    decreases |subject|
  {
    if |search| == 0 || |subject| == 0 then subject
    else if StartsWith(subject, search) then replace + StrReplace(search, replace, subject[|search|..])
    else [subject[0]] + StrReplace(search, replace, subject[1..])
  }

  /** HTML escaping of `&` as `&amp;`, as `moodle_url::out()` writes the
      separators between query parameters. */
  function EscapeAmp(s: string): (r: string)
    ensures |r| >= |s|
  {
    if |s| == 0 then ""
    else if s[0] == '&' then "&amp;" + EscapeAmp(s[1..])
    else [s[0]] + EscapeAmp(s[1..])
  }

  /** Replacing `&amp;` by `&` undoes the escaping of `&`. */
  lemma {:induction false} UnescapeEscapeAmp(s: string)
    ensures StrReplace("&amp;", "&", EscapeAmp(s)) == s
  {
    if |s| > 0 {
      UnescapeEscapeAmp(s[1..]);
      var e := EscapeAmp(s);
      if s[0] == '&' {
        assert StartsWith(e, "&amp;");
        assert e[5..] == EscapeAmp(s[1..]);
      } else {
        assert e[0] == s[0];
        assert !StartsWith(e, "&amp;");
        assert e[1..] == EscapeAmp(s[1..]);
      }
      assert s == [s[0]] + s[1..];
    }
  }

  /** A string with no `&` is not touched by the replacement. */
  lemma {:induction false} StrReplaceWithoutAmp(s: string)
    requires forall k :: 0 <= k < |s| ==> s[k] != '&'
    ensures StrReplace("&amp;", "&", s) == s
  {
    if |s| > 0 {
      StrReplaceWithoutAmp(s[1..]);
      assert s == [s[0]] + s[1..];
    }
  }

  // ---------------------------------------------------------------------
  // JSON payloads

  /** A PHP array as `json_encode` sees it: scalars and string-keyed maps kept
      in insertion order. */
  datatype Json = JNull | JBool(b: bool) | JInt(i: int) | JStr(s: string) | JObj(fields: seq<(string, Json)>)

  /** The first entry named `key` in a list of fields. */
  function FieldOf(fields: seq<(string, Json)>, key: string): (r: Option<Json>)
    ensures r.Some? <==> exists k :: 0 <= k < |fields| && fields[k].0 == key
  {
    if |fields| == 0 then None
    else if fields[0].0 == key then Some(fields[0].1)
    else FieldOf(fields[1..], key)
  }

  /** The field found is the first one carrying the key. */
  lemma {:induction false} FieldOfFirst(fields: seq<(string, Json)>, i: nat, key: string)
    requires i < |fields| && fields[i].0 == key
    requires forall j :: 0 <= j < i ==> fields[j].0 != key
    ensures FieldOf(fields, key) == Some(fields[i].1)
  {
    if i > 0 {
      FieldOfFirst(fields[1..], i - 1, key);
    }
  }

  /** `$j[$path[0]][$path[1]]...`, or None when some step is missing. */
  function At(j: Json, path: seq<string>): Option<Json>
    decreases |path|
  {
    if |path| == 0 then Some(j)
    else match j
      case JObj(fields) =>
        (match FieldOf(fields, path[0])
         case Some(child) => At(child, path[1..])
         case None => None)
      case _ => None
  }

  /** One step of a path: into the first field carrying the key. */
  lemma AtField(fields: seq<(string, Json)>, i: nat, key: string, rest: seq<string>)
    requires i < |fields| && fields[i].0 == key
    requires forall j :: 0 <= j < i ==> fields[j].0 != key
    ensures At(JObj(fields), [key] + rest) == At(fields[i].1, rest)
  {
    FieldOfFirst(fields, i, key);
    assert ([key] + rest)[1..] == rest;
  }

  /** `(string)` of a decoded JSON value as `validate_param` checks it
      before a text column is written: a string as is, an integer in
      decimal, true as "1" and false as ""; null and arrays are rejected. */
  function TextOf(j: Json): (r: Option<string>)
    ensures r.Some? <==> j.JStr? || j.JInt? || j.JBool?
    ensures j.JInt? ==> StringToInt(r.value) == j.i
  {
    match j
    case JStr(s) => Some(s)
    case JInt(i) => IntToStringRoundTrip(i); Some(IntToString(i))
    case JBool(b) => Some(if b then "1" else "")
    case _ => None
  }

  /** How a database value is encoded into the payload. */
  function ValueToJson(v: Value): Json {
    match v
    case Null => JNull
    case IntVal(i) => JInt(i)
    case StrVal(s) => JStr(s)
  }
}

=== FILE: php_object.dfy ===
/** A PHP `stdClass` record such as the submitted quiz form: named properties
    kept in insertion order. Assigning an existing property replaces its value
    in place; assigning a new one appends it; `unset` removes it. */
module PhpObject {
  import opened Wrappers
  import opened Php

  datatype Field = Field(name: string, value: Value)

  type Object = seq<Field>

  /** Property names in order. */
  function Names(o: Object): (r: seq<string>)
    ensures |r| == |o|
  {
    if |o| == 0 then [] else [o[0].name] + Names(o[1..])
  }

  /** The name of every property is among the names. */
  lemma {:induction false} NameAt(o: Object, i: nat)
    requires i < |o|
    ensures o[i].name in Names(o)
  {
    if i > 0 {
      NameAt(o[1..], i - 1);
    }
  }

  /** A PHP object never holds two properties of the same name. */
  predicate UniqueNames(o: Object) {
    |o| == 0 || (o[0].name !in Names(o[1..]) && UniqueNames(o[1..]))
  }

  /** `$o->$k`, or None when there is no such property. */
  function Get(o: Object, k: string): (r: Option<Value>)
    ensures r.Some? <==> k in Names(o)
  {
    if |o| == 0 then None
    else if o[0].name == k then Some(o[0].value)
    else Get(o[1..], k)
  }

  /** `$o->$k = $v`: the value is replaced in place or the property appended;
      no other property changes. */
  function Set(o: Object, k: string, v: Value): (r: Object)
    ensures Get(r, k) == Some(v)
    ensures forall k' :: k' != k ==> Get(r, k') == Get(o, k')
    ensures Names(r) == if k in Names(o) then Names(o) else Names(o) + [k]
    ensures UniqueNames(o) ==> UniqueNames(r)
  {
    if |o| == 0 then [Field(k, v)]
    else if o[0].name == k then [Field(k, v)] + o[1..]
    else
      var r := [o[0]] + Set(o[1..], k, v);
      assert r[1..] == Set(o[1..], k, v);
      r
  }

  /** `unset($o->$k)`. */
  function Remove(o: Object, k: string): (r: Object)
    ensures Get(r, k) == None
    ensures forall k' :: k' != k ==> Get(r, k') == Get(o, k')
    ensures forall n :: n in Names(r) ==> n in Names(o)
    ensures UniqueNames(o) ==> UniqueNames(r)
  {
    if |o| == 0 then []
    else if o[0].name == k then Remove(o[1..], k)
    else
      var r := [o[0]] + Remove(o[1..], k);
      assert r[1..] == Remove(o[1..], k);
      r
  }

  lemma {:induction false} NamesSnoc(o: Object, f: Field)
    ensures Names(o + [f]) == Names(o) + [f.name]
  {
    if |o| > 0 {
      assert (o + [f])[1..] == o[1..] + [f];
      NamesSnoc(o[1..], f);
    }
  }

  /** Looking up in an object extended by one property. */
  lemma {:induction false} GetSnoc(o: Object, f: Field, k: string)
    ensures Get(o + [f], k) == if k in Names(o) then Get(o, k) else if f.name == k then Some(f.value) else None
  {
    if |o| > 0 {
      assert (o + [f])[1..] == o[1..] + [f];
      GetSnoc(o[1..], f, k);
    }
  }

  lemma {:induction false} UniqueSnoc(o: Object, f: Field)
    requires UniqueNames(o + [f])
    ensures UniqueNames(o) && f.name !in Names(o)
  {
    if |o| > 0 {
      assert (o + [f])[1..] == o[1..] + [f];
      NamesSnoc(o[1..], f);
      UniqueSnoc(o[1..], f);
    }
  }

  /** `array_merge($a, $b)` on string-keyed arrays: the entries of `b` are
      assigned over `a` in order, so `b` wins on a shared key. */
  function ArrayMerge(a: Object, b: Object): (r: Object)
    ensures UniqueNames(a) ==> UniqueNames(r)
    decreases |b|
  {
    if |b| == 0 then a
    else
      var f := b[|b| - 1];
      Set(ArrayMerge(a, b[..|b| - 1]), f.name, f.value)
  }

  /** A key of the merge takes its value from `b` when `b` has it, and from
      `a` otherwise. */
  lemma {:induction false} ArrayMergeGet(a: Object, b: Object, k: string)
    requires UniqueNames(b)
    ensures Get(ArrayMerge(a, b), k) == if k in Names(b) then Get(b, k) else Get(a, k)
    decreases |b|
  {
    if |b| > 0 {
      GetLast(b, k);
      NamesSnoc(b[..|b| - 1], b[|b| - 1]);
      assert b == b[..|b| - 1] + [b[|b| - 1]];
      ArrayMergeGet(a, b[..|b| - 1], k);
    }
  }

  /** Splitting off the last property of an object with unique names. */
  lemma GetLast(o: Object, k: string)
    requires |o| > 0 && UniqueNames(o)
    ensures UniqueNames(o[..|o| - 1])
    ensures Get(o, k) == if o[|o| - 1].name == k then Some(o[|o| - 1].value) else Get(o[..|o| - 1], k)
  {
    assert o == o[..|o| - 1] + [o[|o| - 1]];
    UniqueSnoc(o[..|o| - 1], o[|o| - 1]);
    GetSnoc(o[..|o| - 1], o[|o| - 1], k);
  }
}

=== FILE: quiz_settings.dfy ===
/** The plugin's per-quiz settings record as the persistence layer holds it:
    the properties assigned so far, with each property's declared default
    standing in for one never assigned. Unknown keys of a record loaded into
    it are ignored. */
module QuizSettings {
  import opened Wrappers
  import opened Php
  import opened PhpObject

  /** The eleven yes/no switches, in the order the launch payload lists them. */
  const ToggleNames: seq<string> :=
    [ "main_camera_record", "second_camera_record", "screen_share_record", "photo_head_identity",
      "id_verification", "display_checks", "hdcp_checks", "content_protect",
      "fullscreen_mode", "extension_detector", "focus_detector" ]

  /** Every property of the record: the persistence layer's own four, then the
      plugin's declared ones. */
  const PropertyNames: seq<string> :=
    [ "id", "timecreated", "timemodified", "usermodified",
      "quizid", "cmid", "proctoring", "application" ] + ToggleNames

  /** The declared defaults; a property without one reads as null. */
  function Default(name: string): Value {
    match name
    case "id" => IntVal(0)
    case "timecreated" => IntVal(0)
    case "timemodified" => IntVal(0)
    case "usermodified" => IntVal(0)
    case "proctoring" => IntVal(1)
    case "application" => StrVal("browser")
    case "main_camera_record" => IntVal(1)
    case "second_camera_record" => IntVal(1)
    case "screen_share_record" => IntVal(1)
    case "photo_head_identity" => IntVal(1)
    case "id_verification" => IntVal(0)
    case "display_checks" => IntVal(1)
    case "hdcp_checks" => IntVal(1)
    case "content_protect" => IntVal(1)
    case "fullscreen_mode" => IntVal(0)
    case "focus_detector" => IntVal(0)
    case "extension_detector" => IntVal(0)
    case _ => Null
  }

  /** The values assigned so far. */
  datatype Persistent = Persistent(values: Object)

  /** `get($name)`: the assigned value, else the default. */
  function Property(p: Persistent, name: string): (r: Value)
    ensures name !in Names(p.values) ==> r == Default(name)
  {
    match Get(p.values, name)
    case Some(v) => v
    case None => Default(name)
  }

  /** `set($name, $value)`. */
  function SetProperty(p: Persistent, name: string, v: Value): (r: Persistent)
    ensures Property(r, name) == v
    ensures forall n :: n != name ==> Property(r, n) == Property(p, n)
    ensures UniqueNames(p.values) ==> UniqueNames(r.values)
  {
    Persistent(Set(p.values, name, v))
  }

  /** `from_record($record)`: assign every property the record carries, in
      order, and ignore its other keys. */
  function FromRecord(p: Persistent, record: Object): (r: Persistent)
    ensures UniqueNames(p.values) ==> UniqueNames(r.values)
  {
    Load(PropertyNames, p, record)
  }

  /** Loading a record into a persistent whose properties are `known`. */
  function Load(known: seq<string>, p: Persistent, record: Object): (r: Persistent)
    ensures UniqueNames(p.values) ==> UniqueNames(r.values)
    decreases |record|
  {
    if |record| == 0 then p
    else
      var q := Load(known, p, record[..|record| - 1]);
      var f := record[|record| - 1];
      if f.name in known then SetProperty(q, f.name, f.value) else q
  }

  /** Loading a record overrides exactly the known properties it carries. */
  lemma {:induction false} LoadProperty(known: seq<string>, p: Persistent, record: Object, name: string)
    requires UniqueNames(record)
    ensures Property(Load(known, p, record), name) ==
      if name in known && name in Names(record) then Get(record, name).value else Property(p, name)
    decreases |record|
  {
    if |record| > 0 {
      var init := record[..|record| - 1];
      GetLast(record, name);
      NamesSnoc(init, record[|record| - 1]);
      assert record == init + [record[|record| - 1]];
      LoadProperty(known, p, init, name);
    }
  }

  /** The properties the save logic relies on are declared. */
  lemma DeclaredProperties()
    ensures "id" in PropertyNames && "quizid" in PropertyNames && "cmid" in PropertyNames && "proctoring" in PropertyNames
  {
    assert PropertyNames[0] == "id" && PropertyNames[4] == "quizid" && PropertyNames[5] == "cmid" && PropertyNames[6] == "proctoring";
  }

  /** Loading a record into the persistent overrides exactly the declared
      properties it carries. */
  lemma FromRecordProperty(p: Persistent, record: Object, name: string)
    requires UniqueNames(record)
    ensures Property(FromRecord(p, record), name) ==
      if name in PropertyNames && name in Names(record) then Get(record, name).value else Property(p, name)
  {
    LoadProperty(PropertyNames, p, record, name);
  }

  /** `new quiz_settings(0, $record)`. */
  function NewPersistent(record: Object): Persistent {
    FromRecord(Persistent([]), record)
  }
}

=== FILE: quiz_urls.dfy ===
/** The cache of proctoring-session links: one table row per issued link,
    looked up by user, quiz and course module, expiring lazily on read. */
module QuizUrls {
  import opened Wrappers

  /** How long get_link keeps a session link, in seconds. */
  const LinkLifetime: int := 3600

  /** A row of the link table; `timecreated` is set by the persistence layer
      when the row is created. */
  datatype Link = Link(userid: int, quizid: int, cmid: int, url: string, lifetime: int, timecreated: int)

  /** The link table, in insertion order. */
  type Store = seq<Link>

  predicate Matches(l: Link, userid: int, quizid: int, cmid: int) {
    l.userid == userid && l.quizid == quizid && l.cmid == cmid
  }

  /** A link with a positive lifetime expires once its lifetime has passed;
      a lifetime of 0 or less never expires. */
  predicate Expired(l: Link, now: int) {
    l.lifetime > 0 && l.lifetime + l.timecreated < now
  }

  /** The record the SQL lookup returns: the first matching row. */
  function FindLink(store: Store, userid: int, quizid: int, cmid: int): (r: Option<Link>)
    ensures r.Some? <==> exists i :: 0 <= i < |store| && Matches(store[i], userid, quizid, cmid)
    ensures r.Some? ==> r.value in store && Matches(r.value, userid, quizid, cmid)
  {
    if |store| == 0 then None
    else if Matches(store[0], userid, quizid, cmid) then Some(store[0])
    else
      var r := FindLink(store[1..], userid, quizid, cmid);
      assert forall i :: 0 < i < |store| ==> store[i] == store[1..][i - 1];
      r
  }

  /** checkExists: the stored link for this user and quiz, unless it has
      expired. */
  function CheckExists(store: Store, userid: int, quizid: int, cmid: int, now: int): (r: Option<Link>)
    ensures r.Some? ==> r.value in store && Matches(r.value, userid, quizid, cmid) && !Expired(r.value, now)
    ensures (forall i :: 0 <= i < |store| ==> !Matches(store[i], userid, quizid, cmid)) ==> r.None?
  {
    match FindLink(store, userid, quizid, cmid)
    case None => None
    case Some(l) => if Expired(l, now) then None else Some(l)
  }

  /** The user's rows are deleted, all others kept in order. */
  function RemoveUserLinks(store: Store, userid: int): (r: Store)
    ensures forall l :: l in r <==> l in store && l.userid != userid
    ensures |r| <= |store|
  {
    if |store| == 0 then []
    else if store[0].userid == userid then RemoveUserLinks(store[1..], userid)
    else [store[0]] + RemoveUserLinks(store[1..], userid)
  }

  /** createLink: drop every link of the user, for any quiz, then store the
      new one. */
  function CreateLink(store: Store, userid: int, quizid: int, cmid: int, url: string, lifetime: int, now: int): (r: Store)
    ensures forall l :: l in r <==> (l in store && l.userid != userid) || l == Link(userid, quizid, cmid, url, lifetime, now)
    ensures |r| > 0 && r[|r| - 1] == Link(userid, quizid, cmid, url, lifetime, now)
  {
    RemoveUserLinks(store, userid) + [Link(userid, quizid, cmid, url, lifetime, now)]
  }

  /** The table holds at most one link per user. */
  predicate OneLinkPerUser(store: Store) {
    forall i, j :: 0 <= i < j < |store| ==> store[i].userid != store[j].userid
  }

  lemma {:induction false} RemoveUserLinksKeepsOnePerUser(store: Store, userid: int)
    requires OneLinkPerUser(store)
    ensures OneLinkPerUser(RemoveUserLinks(store, userid))
  {
    if |store| > 0 {
      var rest := store[1..];
      assert OneLinkPerUser(rest) by {
        forall i, j | 0 <= i < j < |rest| ensures rest[i].userid != rest[j].userid {
          assert rest[i] == store[i + 1] && rest[j] == store[j + 1];
        }
      }
      RemoveUserLinksKeepsOnePerUser(rest, userid);
      if store[0].userid != userid {
        var r := [store[0]] + RemoveUserLinks(rest, userid);
        forall j | 0 < j < |r| ensures r[0].userid != r[j].userid {
          assert r[j] in RemoveUserLinks(rest, userid);
          assert r[j] in rest;
        }
      }
    }
  }

  /** Creating a link keeps the table at one link per user. */
  lemma CreateLinkKeepsOnePerUser(store: Store, userid: int, quizid: int, cmid: int, url: string, lifetime: int, now: int)
    requires OneLinkPerUser(store)
    ensures OneLinkPerUser(CreateLink(store, userid, quizid, cmid, url, lifetime, now))
  {
    var kept := RemoveUserLinks(store, userid);
    RemoveUserLinksKeepsOnePerUser(store, userid);
    var r := CreateLink(store, userid, quizid, cmid, url, lifetime, now);
    forall i, j | 0 <= i < j < |r| ensures r[i].userid != r[j].userid {
      if j == |r| - 1 {
        assert r[i] in kept;
      } else {
        assert r[i] == kept[i] && r[j] == kept[j];
      }
    }
  }

  /** With one link per user, a lookup finds nothing exactly when the user
      has no live link for this quiz. */
  lemma CheckExistsComplete(store: Store, userid: int, quizid: int, cmid: int, now: int)
    requires OneLinkPerUser(store)
    ensures CheckExists(store, userid, quizid, cmid, now).None? <==>
      forall i :: 0 <= i < |store| && Matches(store[i], userid, quizid, cmid) ==> Expired(store[i], now)
  {
    var f := FindLink(store, userid, quizid, cmid);
    if f.Some? {
      var k :| 0 <= k < |store| && store[k] == f.value;
      forall i | 0 <= i < |store| && Matches(store[i], userid, quizid, cmid) ensures store[i] == f.value {
      }
    }
  }

  /** A link just created is found again until its lifetime has passed,
      whatever the table held before. */
  lemma CheckAfterCreate(store: Store, userid: int, quizid: int, cmid: int, url: string, lifetime: int, now: int, later: int)
    requires lifetime <= 0 || later <= now + lifetime
    ensures CheckExists(CreateLink(store, userid, quizid, cmid, url, lifetime, now), userid, quizid, cmid, later)
      == Some(Link(userid, quizid, cmid, url, lifetime, now))
  {
    var kept := RemoveUserLinks(store, userid);
    var l := Link(userid, quizid, cmid, url, lifetime, now);
    FindLinkAfterMisses(kept, [l], userid, quizid, cmid);
    assert FindLink([l], userid, quizid, cmid) == Some(l);
  }

  /** Creating a link for one user does not change what another user finds. */
  lemma CreateLinkOtherUsers(store: Store, userid: int, other: int, quizid: int, cmid: int, url: string, lifetime: int, now: int, q: int, c: int, t: int)
    requires other != userid
    ensures CheckExists(CreateLink(store, userid, quizid, cmid, url, lifetime, now), other, q, c, t)
      == CheckExists(store, other, q, c, t)
  {
    var kept := RemoveUserLinks(store, userid);
    FindLinkRemoveOtherUser(store, userid, other, q, c);
    FindLinkBeforeMiss(kept, Link(userid, quizid, cmid, url, lifetime, now), other, q, c);
  }

  /** Rows before the first match do not matter to the lookup. */
  lemma {:induction false} FindLinkAfterMisses(a: Store, b: Store, userid: int, quizid: int, cmid: int)
    requires forall i :: 0 <= i < |a| ==> !Matches(a[i], userid, quizid, cmid)
    ensures FindLink(a + b, userid, quizid, cmid) == FindLink(b, userid, quizid, cmid)
  {
    if |a| > 0 {
      assert (a + b)[0] == a[0] && (a + b)[1..] == a[1..] + b;
      FindLinkAfterMisses(a[1..], b, userid, quizid, cmid);
    } else {
      assert a + b == b;
    }
  }

  /** A row appended without a match does not change the lookup. */
  lemma {:induction false} FindLinkBeforeMiss(a: Store, x: Link, userid: int, quizid: int, cmid: int)
    requires !Matches(x, userid, quizid, cmid)
    ensures FindLink(a + [x], userid, quizid, cmid) == FindLink(a, userid, quizid, cmid)
  {
    if |a| > 0 {
      assert (a + [x])[0] == a[0] && (a + [x])[1..] == a[1..] + [x];
      FindLinkBeforeMiss(a[1..], x, userid, quizid, cmid);
    }
  }

  /** Removing one user's rows does not change another user's lookup. */
  lemma {:induction false} FindLinkRemoveOtherUser(store: Store, userid: int, other: int, quizid: int, cmid: int)
    requires other != userid
    ensures FindLink(RemoveUserLinks(store, userid), other, quizid, cmid) == FindLink(store, other, quizid, cmid)
  {
    if |store| > 0 {
      FindLinkRemoveOtherUser(store[1..], userid, other, quizid, cmid);
      if store[0].userid != userid {
        var r := [store[0]] + RemoveUserLinks(store[1..], userid);
        assert r[0] == store[0] && r[1..] == RemoveUserLinks(store[1..], userid);
      }
    }
  }

  /** With one link per user, a matching row is the row the lookup returns. */
  lemma UniqueMatch(store: Store, userid: int, quizid: int, cmid: int, k: int)
    requires OneLinkPerUser(store)
    requires 0 <= k < |store| && Matches(store[k], userid, quizid, cmid)
    ensures FindLink(store, userid, quizid, cmid) == Some(store[k])
  {
    var f := FindLink(store, userid, quizid, cmid).value;
    var j :| 0 <= j < |store| && store[j] == f;
  }

  /** Expiry is monotone: a link still live now was live at every earlier
      moment. */
  lemma CheckExistsMonotone(store: Store, userid: int, quizid: int, cmid: int, earlier: int, now: int)
    requires earlier <= now
    requires CheckExists(store, userid, quizid, cmid, now).Some?
    ensures CheckExists(store, userid, quizid, cmid, earlier) == CheckExists(store, userid, quizid, cmid, now)
  {
  }
}

=== FILE: rule.dfy ===
/** The quiz access rule: whether the rule applies to a quiz, whether it
    blocks the current request (and with what launch button), and how the
    quiz form's settings are validated, saved and deleted. The plugin's
    settings table is a map from quiz id to its settings record. */
module Rule {
  import opened Wrappers
  import opened Php
  import opened PhpObject
  import opened QuizSettings
  import opened SettingsProvider
  import opened AccessManager
  import opened QuizUrls
  import opened LinkGenerator

  /** The settings table, keyed by quiz id (at most one record per quiz). */
  type SettingsTable = map<int, Persistent>

  function Lookup(table: SettingsTable, quizId: int): Option<Persistent> {
    if quizId in table then Some(table[quizId]) else None
  }

  // ---------------------------------------------------------------------
  // Creating the rule

  /** make: the rule exists for a quiz exactly when its proctoring mode is
      non-zero; a stored mode that is not an integer is a type error. */
  function MakeRule(settings: Option<Persistent>): (r: Result<bool, string>)
    ensures r.Err? <==> IsProctoringEnabled(settings).Err?
    ensures r.Ok? ==> (r.value <==> IsProctoringEnabled(settings).value != ProctoringDisabled)
    ensures settings.None? ==> r == Ok(false)
  {
    var mode :- IsProctoringEnabled(settings);
    Ok(mode != ProctoringDisabled)
  }

  // ---------------------------------------------------------------------
  // Preventing access

  /** How the page renders: `single_button` for a URL and `html_writer::div`. */
  datatype Render = Render(singleButton: string -> string, div: string -> string)

  datatype AccessError = ModeTypeError | LinkFailed(error: LinkError)

  /** What prevent_access returns (None for `false`, else the message), the
      cookie it sets, and the link table afterwards. */
  datatype AccessOutcome = AccessOutcome(result: Result<Option<string>, AccessError>, cookie: Option<Cookie>, store: Store)

  /** display_buttons: the buttons wrapped in a div, or "" when the buttons
      are empty in PHP's sense ("" or "0"). */
  function DisplayButtons(buttons: string, div: string -> string): (r: string)
    ensures EmptyString(buttons) ==> r == ""
    ensures !EmptyString(buttons) ==> r == div(buttons)
  {
    if EmptyString(buttons) then "" else div(buttons)
  }

  /** The request passes the rule's check: in Chrome the page must be loaded
      into an iframe; in any other browser the hash check must pass. */
  predicate PassesCheck(req: Request, isChrome: bool, now: int) {
    if isChrome then HasFetchSecIframe(req) else ValidateHashKeys(req, now).valid
  }

  /** prevent_access: no restriction when proctoring is off; otherwise a
      request that fails the check is answered with the launch button, whose
      link comes from the link generator. */
  function PreventAccess(req: Request, isChrome: bool, settings: Option<Persistent>, env: Env, user: User,
                         quiz: Quiz, store: Store, render: Render): (r: AccessOutcome)
    ensures r.cookie.Some? ==> !isChrome && r.cookie == ValidateHashKeys(req, env.now).setCookie
    ensures r.result.Ok? && r.result.value.Some? ==> !PassesCheck(req, isChrome, env.now)
  {
    match IsProctoringEnabled(settings)
    case Err(_) => AccessOutcome(Err(ModeTypeError), None, store)
    case Ok(mode) =>
      if mode == ProctoringDisabled then AccessOutcome(Ok(None), None, store)
      else
        var cookie := if isChrome then None else ValidateHashKeys(req, env.now).setCookie;
        if PassesCheck(req, isChrome, env.now) then AccessOutcome(Ok(None), cookie, store)
        else
          var link := GetLink(env, user, quiz, settings.value, store);
          match link.url
          case Err(e) => AccessOutcome(Err(LinkFailed(e)), cookie, link.store)
          case Ok(url) => AccessOutcome(Ok(Some(DisplayButtons(render.singleButton(url), render.div))), cookie, link.store)
  }

  /** With proctoring off nothing is blocked, nothing is set and no link is
      requested. */
  lemma PreventAccessWhenDisabled(req: Request, isChrome: bool, settings: Option<Persistent>, env: Env, user: User,
                                  quiz: Quiz, store: Store, render: Render)
    requires IsProctoringEnabled(settings) == Ok(ProctoringDisabled)
    ensures PreventAccess(req, isChrome, settings, env, user, quiz, store, render) == AccessOutcome(Ok(None), None, store)
  {
  }

  /** With proctoring on, a request is let through exactly when it passes the
      check: in Chrome when it is loaded into an iframe, elsewhere when it is
      on an attempt page or carries the hash cookie or parameter. A request
      let through leaves the link table alone. */
  lemma PreventAccessWhenEnabled(req: Request, isChrome: bool, settings: Option<Persistent>, env: Env, user: User,
                                 quiz: Quiz, store: Store, render: Render)
    requires IsProctoringEnabled(settings).Ok? && IsProctoringEnabled(settings).value != ProctoringDisabled
    ensures var r := PreventAccess(req, isChrome, settings, env, user, quiz, store, render);
      (r.result == Ok(None)) <==>
        if isChrome then HasFetchSecIframe(req)
        else OnHashFreePage(req) || HashCookieName in req.cookies || HashParameter in req.params
    ensures var r := PreventAccess(req, isChrome, settings, env, user, quiz, store, render);
      r.result == Ok(None) ==> r.store == store
  {
    ValidateHashKeysCases(req, env.now);
  }

  /** A blocked request that had no live link gets a fresh one; a second
      blocked request within the hour, with any HTTP client, gets the same
      answer from the cached link and changes nothing. */
  lemma BlockedRequestReusesLink(req: Request, isChrome: bool, settings: Option<Persistent>, env: Env, user: User,
                                 quiz: Quiz, store: Store, render: Render, later: Env)
    requires CheckExists(store, user.id, quiz.id, quiz.cmid, env.now).None?
    requires env.now <= later.now <= env.now + LinkLifetime
    ensures var r := PreventAccess(req, isChrome, settings, env, user, quiz, store, render);
      r.result.Ok? && r.result.value.Some? ==>
        PreventAccess(req, isChrome, settings, later, user, quiz, r.store, render) == AccessOutcome(r.result, None, r.store)
  {
    var r := PreventAccess(req, isChrome, settings, env, user, quiz, store, render);
    if r.result.Ok? && r.result.value.Some? {
      GetLinkCaches(env, user, quiz, settings.value, store, later.now);
      ValidateHashKeysCases(req, env.now);
      ValidateHashKeysCases(req, later.now);
    }
  }

  // ---------------------------------------------------------------------
  // Validating the quiz form

  /** The error messages of the settings record re-keyed to the form's
      element names and assigned over the form's errors in order. */
  function MergeErrors(errors: Object, recordErrors: Object): (r: Object)
    decreases |recordErrors|
  {
    if |recordErrors| == 0 then errors
    else
      var f := recordErrors[|recordErrors| - 1];
      Set(MergeErrors(errors, recordErrors[..|recordErrors| - 1]), AddPrefix(f.name), f.value)
  }

  /** For record errors keyed by unprefixed property names, the form element
      `oqylyq_n` gets the error of property `n`, and every other entry of the
      form's errors is kept. */
  lemma {:induction false} MergeErrorsGet(errors: Object, recordErrors: Object, k: string)
    requires UniqueNames(recordErrors)
    requires forall i :: 0 <= i < |recordErrors| ==> !StartsWith(recordErrors[i].name, Prefix)
    ensures Get(MergeErrors(errors, recordErrors), k) ==
      if StartsWith(k, Prefix) && StripPrefix(k) in Names(recordErrors) then Get(recordErrors, StripPrefix(k))
      else Get(errors, k)
    decreases |recordErrors|
  {
    if |recordErrors| > 0 {
      var init := recordErrors[..|recordErrors| - 1];
      var f := recordErrors[|recordErrors| - 1];
      GetLast(recordErrors, StripPrefix(k));
      NamesSnoc(init, f);
      assert recordErrors == init + [f];
      MergeErrorsGet(errors, init, k);
      AddPrefixMatches(f.name, k);
    }
  }

  /** An unprefixed name, once prefixed, is the key `k` exactly when `k`
      carries the prefix and strips back to the name. */
  lemma AddPrefixMatches(n: string, k: string)
    requires !StartsWith(n, Prefix)
    ensures AddPrefix(n) == k <==> StartsWith(k, Prefix) && StripPrefix(k) == n
  {
    assert (Prefix + n)[|Prefix|..] == n;
    if StartsWith(k, Prefix) {
      assert k == Prefix + k[|Prefix|..];
    }
  }

  /** The record validated for a submitted form: the form's plugin settings
      with the quiz and course module ids set. */
  function FormRecord(data: Object): Persistent {
    var p := NewPersistent(FilterPluginSettings(data));
    var p := SetProperty(p, "quizid", Get(data, "instance").GetOr(Null));
    SetProperty(p, "cmid", Get(data, "coursemodule").GetOr(Null))
  }

  /** validate_settings_form_fields: a user who cannot configure the plugin
      gets the form's errors back unchanged; otherwise the errors the
      settings record reports (computed by `validate`) are added under the
      form's element names. */
  function ValidateSettingsFormFields(errors: Object, data: Object, granted: set<string>,
                                      validate: Persistent -> Object): (r: Object)
    ensures !CanConfigure(granted) ==> r == errors
  {
    var quizid := Get(data, "instance").GetOr(Null);
    if !CanConfigure(granted) then errors
    else if IsSettingsLocked(IntCast(quizid)) then errors
    else if IsConflictingPermissions(IntCast(quizid)) then errors
    else MergeErrors(errors, validate(FormRecord(data)))
  }

  /** Errors as a persistent reports them: at most one per property, keyed
      by the property's own (unprefixed) name. */
  predicate PropertyErrors(e: Object) {
    UniqueNames(e) && forall i :: 0 <= i < |e| ==> !StartsWith(e[i].name, Prefix)
  }

  /** What the validation adds: each error of the settings record lands on
      its form element, and no other entry of the form's errors changes. */
  lemma ValidateSettingsFormFieldsGet(errors: Object, data: Object, granted: set<string>,
                                      validate: Persistent -> Object, k: string)
    requires CanConfigure(granted)
    requires forall p :: PropertyErrors(validate(p))
    ensures var e := validate(FormRecord(data));
      Get(ValidateSettingsFormFields(errors, data, granted, validate), k) ==
        if StartsWith(k, Prefix) && StripPrefix(k) in Names(e) then Get(e, StripPrefix(k)) else Get(errors, k)
  {
    ValidateSettingsFormFieldsMerges(errors, data, granted, validate);
    MergeErrorsGet(errors, validate(FormRecord(data)), k);
  }

  /** Settings are never locked nor in conflict, so a user who may configure
      the plugin always has the record's errors merged in. */
  lemma ValidateSettingsFormFieldsMerges(errors: Object, data: Object, granted: set<string>,
                                         validate: Persistent -> Object)
    requires CanConfigure(granted)
    ensures ValidateSettingsFormFields(errors, data, granted, validate) == MergeErrors(errors, validate(FormRecord(data)))
  {
  }

  // ---------------------------------------------------------------------
  // Saving and deleting

  /** The record save_settings builds from the form's plugin settings
      `settings`: the quiz and course module ids are added and the result is
      loaded into a fresh record, or over the existing one keeping its id. */
  function SavedRecord(settings: Object, quizId: int, cmId: int, existing: Option<Persistent>): Persistent {
    LoadOver(existing, WithIds(settings, quizId, cmId))
  }

  /** The proctoring mode a record ends up with: the one in the settings,
      when they carry one; otherwise the existing record's, or the default. */
  function EffectiveMode(settings: Object, existing: Option<Persistent>): Value {
    match Get(settings, "proctoring")
    case Some(v) => v
    case None =>
      match existing
      case Some(p) => Property(p, "proctoring")
      case None => Default("proctoring")
  }

  /** The error the persistence layer raises when a record it is asked to
      create or update fails its own validation. */
  const InvalidPersistent: string := "invalid_persistent_exception"

  /** The decision of save_settings for the settings of one quiz: a record
      whose mode is not loosely 0 is saved (a new one gets `newId` from the
      database) when it passes `validate`; otherwise an existing record with
      an id is deleted. */
  function SaveRecord(table: SettingsTable, settings: Object, quizId: int, cmId: int, newId: int,
                      validate: Persistent -> Object): (r: Result<SettingsTable, string>)
    ensures r.Ok? ==> forall q :: q != quizId ==> Lookup(r.value, q) == Lookup(table, q)
    ensures r.Err? ==> r.error == InvalidPersistent
  {
    Persist(table, quizId, SavedRecord(settings, quizId, cmId, Lookup(table, quizId)), newId, validate)
  }

  /** Saving or deleting the loaded record `p` of quiz `quizId`. Saving, by
      create or update, first validates the record (`validate` returns its
      errors by property) and raises instead of storing when any is found;
      deleting validates nothing. */
  function Persist(table: SettingsTable, quizId: int, p: Persistent, newId: int,
                   validate: Persistent -> Object): (r: Result<SettingsTable, string>)
    ensures r.Ok? ==> forall q :: q != quizId ==> Lookup(r.value, q) == Lookup(table, q)
    ensures r.Err? ==> r.error == InvalidPersistent
  {
    if !LooseEqualsZero(Property(p, "proctoring")) then
      if validate(p) != [] then Err(InvalidPersistent)
      else Ok(table[quizId := if quizId !in table then SetProperty(p, "id", IntVal(newId)) else p])
    else if BoolCast(Property(p, "id")) then Ok(table - {quizId})
    else Ok(table)
  }

  /** A record whose mode is not loosely 0 is stored when it is valid, a new
      one under the database's id, and rejected with the table untouched
      when it is not; otherwise a record with a truthy id is removed and one
      without is left alone, whatever the validation would say. */
  lemma PersistOutcome(table: SettingsTable, quizId: int, p: Persistent, newId: int, validate: Persistent -> Object)
    ensures var r := Persist(table, quizId, p, newId, validate);
      && (r.Err? <==> !LooseEqualsZero(Property(p, "proctoring")) && validate(p) != [])
      && (!LooseEqualsZero(Property(p, "proctoring")) && validate(p) == [] ==>
            && quizId in r.value
            && (forall n :: n != "id" ==> Property(r.value[quizId], n) == Property(p, n))
            && Property(r.value[quizId], "id") == (if quizId in table then Property(p, "id") else IntVal(newId)))
      && (LooseEqualsZero(Property(p, "proctoring")) ==>
            r == Ok(if BoolCast(Property(p, "id")) then table - {quizId} else table))
  {
  }

  /** save_settings: the course module must exist; the form is filtered to
      the plugin's settings, which are then saved or deleted. Saving fails
      when the module is missing or the record to be saved is invalid. */
  function SaveSettings(table: SettingsTable, form: Object, quizId: int, cm: Option<int>, newId: int,
                        validate: Persistent -> Object): (r: Result<SettingsTable, string>)
    ensures r.Err? <==>
      || cm.None?
      || (var p := SavedRecord(FilterPluginSettings(form), quizId, cm.value, Lookup(table, quizId));
          !LooseEqualsZero(Property(p, "proctoring")) && validate(p) != [])
    ensures cm.Some? && r.Err? ==> r.error == InvalidPersistent
    ensures r.Ok? ==> forall q :: q != quizId ==> Lookup(r.value, q) == Lookup(table, q)
  {
    if cm.None? then Err("course module not found")
    else
      var p := SavedRecord(FilterPluginSettings(form), quizId, cm.value, Lookup(table, quizId));
      PersistOutcome(table, quizId, p, newId, validate);
      SaveRecord(table, FilterPluginSettings(form), quizId, cm.value, newId, validate)
  }

  /** The settings with the quiz and course module ids added. */
  function WithIds(settings: Object, quizId: int, cmId: int): Object {
    Set(Set(settings, "quizid", IntVal(quizId)), "cmid", IntVal(cmId))
  }

  /** The record loaded from `record` over `existing`, or over a fresh one. */
  function LoadOver(existing: Option<Persistent>, record: Object): Persistent {
    match existing
    case None => NewPersistent(record)
    case Some(p) => FromRecord(p, Set(record, "id", Property(p, "id")))
  }

  /** A declared property the loaded record carries takes its value from the
      record; one it does not carry keeps the existing value or default. */
  lemma LoadOverProperty(existing: Option<Persistent>, record: Object, name: string)
    requires UniqueNames(record) && name != "id" && name in PropertyNames
    ensures Property(LoadOver(existing, record), name) ==
      if name in Names(record) then Get(record, name).value
      else if existing.Some? then Property(existing.value, name)
      else Default(name)
  {
    match existing {
      case None =>
        FromRecordProperty(Persistent([]), record, name);
      case Some(e) =>
        FromRecordProperty(e, Set(record, "id", Property(e, "id")), name);
    }
  }

  /** Loading over an existing record keeps its id. */
  lemma LoadOverKeepsId(e: Persistent, record: Object)
    requires UniqueNames(record)
    ensures Property(LoadOver(Some(e), record), "id") == Property(e, "id")
  {
    DeclaredProperties();
    FromRecordProperty(e, Set(record, "id", Property(e, "id")), "id");
  }

  /** Adding the ids sets both and leaves the mode alone. */
  lemma WithIdsGet(settings: Object, quizId: int, cmId: int)
    requires UniqueNames(settings)
    ensures var w := WithIds(settings, quizId, cmId);
      && UniqueNames(w)
      && Get(w, "quizid") == Some(IntVal(quizId))
      && Get(w, "cmid") == Some(IntVal(cmId))
      && Get(w, "proctoring") == Get(settings, "proctoring")
  {
  }

  /** The saved record's mode is the effective mode. */
  lemma SavedRecordMode(settings: Object, quizId: int, cmId: int, existing: Option<Persistent>)
    requires UniqueNames(settings)
    ensures Property(SavedRecord(settings, quizId, cmId, existing), "proctoring") == EffectiveMode(settings, existing)
  {
    var w := WithIds(settings, quizId, cmId);
    WithIdsGet(settings, quizId, cmId);
    DeclaredProperties();
    LoadOverProperty(existing, w, "proctoring");
  }

  /** The saved record holds the quiz and course module ids. */
  lemma SavedRecordIds(settings: Object, quizId: int, cmId: int, existing: Option<Persistent>)
    requires UniqueNames(settings)
    ensures Property(SavedRecord(settings, quizId, cmId, existing), "quizid") == IntVal(quizId)
    ensures Property(SavedRecord(settings, quizId, cmId, existing), "cmid") == IntVal(cmId)
  {
    var w := WithIds(settings, quizId, cmId);
    WithIdsGet(settings, quizId, cmId);
    DeclaredProperties();
    LoadOverProperty(existing, w, "quizid");
    LoadOverProperty(existing, w, "cmid");
  }

  /** The saved record carries the effective mode, the ids, and the existing
      record's id. */
  lemma SavedRecordProperties(settings: Object, quizId: int, cmId: int, existing: Option<Persistent>)
    requires UniqueNames(settings)
    ensures var p := SavedRecord(settings, quizId, cmId, existing);
      && Property(p, "proctoring") == EffectiveMode(settings, existing)
      && Property(p, "quizid") == IntVal(quizId)
      && Property(p, "cmid") == IntVal(cmId)
      && (existing.Some? ==> Property(p, "id") == Property(existing.value, "id"))
  {
    SavedRecordMode(settings, quizId, cmId, existing);
    SavedRecordIds(settings, quizId, cmId, existing);
    if existing.Some? {
      WithIdsGet(settings, quizId, cmId);
      LoadOverKeepsId(existing.value, WithIds(settings, quizId, cmId));
    }
  }

  /** The outcome of saving: with a mode that is not loosely 0 the record
      built is validated, and the quiz keeps it, with the effective mode and
      its ids, exactly when it is valid; otherwise an existing record with an
      id is removed and a new one is not stored; nothing else in the table
      changes. */
  lemma SaveRecordOutcome(table: SettingsTable, settings: Object, quizId: int, cm: int, newId: int,
                          validate: Persistent -> Object)
    requires UniqueNames(settings) && "id" !in Names(settings)
    ensures var mode := EffectiveMode(settings, Lookup(table, quizId));
      var valid := validate(SavedRecord(settings, quizId, cm, Lookup(table, quizId))) == [];
      var r := SaveRecord(table, settings, quizId, cm, newId, validate);
      && (r.Err? <==> !LooseEqualsZero(mode) && !valid)
      && (!LooseEqualsZero(mode) && valid ==>
            && quizId in r.value
            && Property(r.value[quizId], "proctoring") == mode
            && Property(r.value[quizId], "quizid") == IntVal(quizId)
            && Property(r.value[quizId], "cmid") == IntVal(cm)
            && Property(r.value[quizId], "id") == (if quizId in table then Property(table[quizId], "id") else IntVal(newId)))
      && (LooseEqualsZero(mode) && quizId in table && BoolCast(Property(table[quizId], "id")) ==> r.Ok? && quizId !in r.value)
      && (LooseEqualsZero(mode) && quizId !in table ==> r == Ok(table))
  {
    var existing := Lookup(table, quizId);
    var p := SavedRecord(settings, quizId, cm, existing);
    SavedRecordProperties(settings, quizId, cm, existing);
    PersistOutcome(table, quizId, p, newId, validate);
    if existing.None? {
      NewRecordHasNoId(settings, quizId, cm);
    }
  }

  /** A new record built from settings without an id has the default id 0. */
  lemma NewRecordHasNoId(settings: Object, quizId: int, cmId: int)
    requires UniqueNames(settings) && "id" !in Names(settings)
    ensures !BoolCast(Property(SavedRecord(settings, quizId, cmId, None), "id"))
  {
    var w := WithIds(settings, quizId, cmId);
    assert "id" !in Names(w);
    FromRecordProperty(Persistent([]), w, "id");
    assert Property(SavedRecord(settings, quizId, cmId, None), "id") == Default("id") == IntVal(0);
  }

  /** The mode saved comes from the form's `oqylyq_proctoring` when the form
      has it, whatever its value. */
  lemma EffectiveModeOfForm(form: Object, existing: Option<Persistent>)
    requires UniqueNames(form)
    ensures EffectiveMode(FilterPluginSettings(form), existing) ==
      if ProctoringField in Names(form) then Get(form, ProctoringField).value
      else if existing.Some? then Property(existing.value, "proctoring")
      else IntVal(1)
  {
    EffectiveModeOfFiltered(SettingsMap(), form, existing);
  }

  /** The same for any settings map. */
  lemma EffectiveModeOfFiltered(modes: seq<ModeSettings>, form: Object, existing: Option<Persistent>)
    requires UniqueNames(form)
    ensures EffectiveMode(FilterSettings(modes, form), existing) ==
      if ProctoringField in Names(form) then Get(form, ProctoringField).value
      else if existing.Some? then Property(existing.value, "proctoring")
      else IntVal(1)
  {
    FilterSettingsMode(modes, form);
    EffectiveModeOfGet(FilterSettings(modes, form), existing, Get(form, ProctoringField));
  }

  /** The effective mode of settings whose `proctoring` lookup gives `m`. */
  lemma EffectiveModeOfGet(settings: Object, existing: Option<Persistent>, m: Option<Value>)
    requires Get(settings, "proctoring") == m
    ensures EffectiveMode(settings, existing) ==
      if m.Some? then m.value
      else if existing.Some? then Property(existing.value, "proctoring")
      else IntVal(1)
  {
  }

  /** Saving agrees with the access manager: after a save that succeeds the
      quiz reports a non-zero mode exactly when the saved mode is not loosely
      0 (given records keep non-zero ids). */
  lemma SaveThenMode(table: SettingsTable, settings: Object, quizId: int, cm: int, newId: int,
                     validate: Persistent -> Object)
    requires UniqueNames(settings) && "id" !in Names(settings)
    requires quizId in table ==> BoolCast(Property(table[quizId], "id"))
    ensures var r := SaveRecord(table, settings, quizId, cm, newId, validate);
      r.Ok? && IsProctoringEnabled(Lookup(r.value, quizId)).Ok? ==>
        (IsProctoringEnabled(Lookup(r.value, quizId)).value != ProctoringDisabled <==>
           !LooseEqualsZero(EffectiveMode(settings, Lookup(table, quizId))))
  {
    var r := SaveRecord(table, settings, quizId, cm, newId, validate);
    var mode := EffectiveMode(settings, Lookup(table, quizId));
    SaveRecordOutcome(table, settings, quizId, cm, newId, validate);
    if r.Err? {
    } else if LooseEqualsZero(mode) {
      assert quizId !in r.value;
    } else if IsProctoringEnabled(Some(r.value[quizId])).Ok? {
      assert Property(r.value[quizId], "proctoring") == mode;
      IsProctoringEnabledAgreesWithSave(r.value[quizId]);
    }
  }

  /** The filtered form never carries an `id` unless the form has an
      `oqylyq_id`. */
  lemma FilteredFormHasNoId(form: Object)
    requires UniqueNames(form) && Prefix + "id" !in Names(form)
    ensures UniqueNames(FilterPluginSettings(form)) && "id" !in Names(FilterPluginSettings(form))
  {
    assert Prefix + "id" != ProctoringField;
    FilterSettingsGet(SettingsMap(), form, "id");
  }

  /** When the form sets a proctoring mode, an `oqylyq_id` in it reaches
      the filtered settings only as null, since no mode allows that name; so
      a new record is then created and a zero mode deletes nothing. */
  lemma FormModeNullsId(form: Object)
    requires UniqueNames(form)
    ensures Get(form, ProctoringField).Some? && Get(form, ProctoringField).value != Null ==>
      Get(FilterPluginSettings(form), "id") == (if Prefix + "id" in Names(form) then Some(Null) else None)
  {
    assert Prefix + "id" != ProctoringField;
    assert Prefix + "id" !in ConfigElementNames;
    FilterPluginSettingsGet(form, "id");
  }

  /** save_settings end to end: with the course module found, the quiz keeps
      a record exactly when the form's mode (or, without one, the existing
      record's, or the default 1) is not loosely 0 and the record passes
      validation, and that record holds the mode and both ids; a record that
      fails validation is an error. */
  lemma SaveSettingsOutcome(table: SettingsTable, form: Object, quizId: int, cm: int, newId: int,
                            validate: Persistent -> Object)
    requires UniqueNames(form) && Prefix + "id" !in Names(form)
    ensures var existing := Lookup(table, quizId);
      var mode := if ProctoringField in Names(form) then Get(form, ProctoringField).value
                  else if existing.Some? then Property(existing.value, "proctoring")
                  else IntVal(1);
      var valid := validate(SavedRecord(FilterPluginSettings(form), quizId, cm, existing)) == [];
      var r := SaveSettings(table, form, quizId, Some(cm), newId, validate);
      && (r.Ok? <==> LooseEqualsZero(mode) || valid)
      && (!LooseEqualsZero(mode) && valid ==>
            && quizId in r.value
            && Property(r.value[quizId], "proctoring") == mode
            && Property(r.value[quizId], "quizid") == IntVal(quizId)
            && Property(r.value[quizId], "cmid") == IntVal(cm))
      && (LooseEqualsZero(mode) && quizId in table && BoolCast(Property(table[quizId], "id")) ==> quizId !in r.value)
      && (LooseEqualsZero(mode) && quizId !in table ==> r.value == table)
  {
    var settings := FilterPluginSettings(form);
    assert SaveSettings(table, form, quizId, Some(cm), newId, validate) == SaveRecord(table, settings, quizId, cm, newId, validate);
    FilteredFormHasNoId(form);
    EffectiveModeOfForm(form, Lookup(table, quizId));
    SaveRecordOutcome(table, settings, quizId, cm, newId, validate);
  }

  /** delete_settings: the quiz's record, if any, is removed. */
  function DeleteSettings(table: SettingsTable, quizId: int): (r: SettingsTable)
    ensures quizId !in r
    ensures forall q :: q != quizId ==> Lookup(r, q) == Lookup(table, q)
  {
    if quizId in table then table - {quizId} else table
  }
}

=== FILE: settings_provider.dfy ===
/** The settings resolver of the quiz-access plugin: the static settings map
    keyed by proctoring mode, the setting names each mode allows, the
    capabilities a teacher needs to edit a setting, the hide rules of the quiz
    form, and the filter that turns a submitted quiz form into the plugin's own
    settings record. */
module SettingsProvider {
  import opened Wrappers
  import opened Php
  import opened PhpObject

  const ProctoringDisabled: int := 0
  const ProctoringEnabled: int := 1

  /** Every form element of the plugin carries this prefix. */
  const Prefix: string := "oqylyq_"
  const ProctoringField: string := "oqylyq_proctoring"
  const CapabilityPrefix: string := "quizaccess/oqylyq:manage_"
  /** The capability that lets a user see the plugin's settings at all. */
  const ConfigureCapability: string := "quizaccess/oqylyq:manage_oqylyq_proctoring"

  datatype SettingsError =
    | UnknownSetting(name: string)     // coding_exception of build_setting_capability_name
    | CapabilityNotFound               // coding_exception of can_manage_oqylyq_config_setting

  // ---------------------------------------------------------------------
  // Configuration elements

  datatype ElementType = Select(options: seq<(string, string)>) | SelectYesNo

  datatype ConfigElement = ConfigElement(name: string, elementType: ElementType)

  /** Names of the twelve configurable form elements, in form order. */
  const ConfigElementNames: seq<string> :=
    [ "oqylyq_application", "oqylyq_main_camera_record", "oqylyq_screen_share_record",
      "oqylyq_second_camera_record", "oqylyq_photo_head_identity", "oqylyq_id_verification",
      "oqylyq_display_checks", "oqylyq_hdcp_checks", "oqylyq_content_protect",
      "oqylyq_extension_detector", "oqylyq_fullscreen_mode", "oqylyq_focus_detector" ]

  /** get_oqylyq_config_elements: the application selector first, then eleven
      yes/no switches. */
  function ConfigElements(): (r: seq<ConfigElement>)
    ensures |r| == |ConfigElementNames|
    ensures forall i :: 0 <= i < |r| ==> r[i].name == ConfigElementNames[i]
  {
    [ConfigElement(ConfigElementNames[0], Select([("browser", "Browser"), ("tray", "TrayApp"), ("desktop", "Desktop Application")]))]
      + YesNoElements(ConfigElementNames[1..])
  }

  /** One yes/no selector per name, in order. */
  function YesNoElements(names: seq<string>): (r: seq<ConfigElement>)
    ensures |r| == |names|
    ensures forall i :: 0 <= i < |r| ==> r[i] == ConfigElement(names[i], SelectYesNo)
  {
    if |names| == 0 then [] else [ConfigElement(names[0], SelectYesNo)] + YesNoElements(names[1..])
  }

  /** The application selector comes first, offering three applications;
      every other element is a yes/no selector. */
  lemma ConfigElementTypes()
    ensures var r := ConfigElements();
      && r[0].elementType.Select? && |r[0].elementType.options| == 3
      && StripPrefix(r[0].name) == "application"
      && (forall i :: 1 <= i < |r| ==> r[i].elementType == SelectYesNo)
  {
  }

  /** The configuration elements are twelve distinct names, all carrying the
      plugin prefix, and the proctoring selector is not one of them. */
  lemma ConfigElementsShape()
    ensures |ConfigElementNames| == 12
    ensures forall i, j :: 0 <= i < j < 12 ==> ConfigElementNames[i] != ConfigElementNames[j]
    ensures forall n :: n in ConfigElementNames ==> StartsWith(n, Prefix)
    ensures ProctoringField !in ConfigElementNames
  {
  }

  // ---------------------------------------------------------------------
  // The settings map

  /** A setting and the settings that depend on it. */
  datatype SettingNode = SettingNode(name: string, children: seq<SettingNode>)

  /** The settings tree of one proctoring mode. */
  datatype ModeSettings = ModeSettings(mode: int, settings: seq<SettingNode>)

  /** Independent settings with no dependants. */
  function Leaves(names: seq<string>): (r: seq<SettingNode>)
    ensures |r| == |names|
    ensures forall i :: 0 <= i < |r| ==> r[i] == SettingNode(names[i], [])
  {
    if |names| == 0 then [] else [SettingNode(names[0], [])] + Leaves(names[1..])
  }

  /** get_oqylyq_settings_map: nothing for mode 0, the twelve elements as
      independent top-level settings for mode 1. */
  function SettingsMap(): seq<ModeSettings> {
    SettingsMapOf(ConfigElementNames)
  }

  /** The shape of the map: nothing when proctoring is off, the given names
      as independent settings when it is on. */
  function SettingsMapOf(names: seq<string>): seq<ModeSettings> {
    [ ModeSettings(ProctoringDisabled, []),
      ModeSettings(ProctoringEnabled, Leaves(names)) ]
  }

  /** Every name of a forest, at every depth, in pre-order. */
  function TreeNames(f: seq<SettingNode>): seq<string>
    decreases f
  {
    if |f| == 0 then [] else [f[0].name] + TreeNames(f[0].children) + TreeNames(f[1..])
  }

  /** build_allowed_settings: each setting's name, then each child's name
      followed by the recursive walk of that child's own children. */
  function BuildAllowedSettings(settings: seq<SettingNode>): seq<string>
    decreases settings, 1
  {
    if |settings| == 0 then []
    else [settings[0].name] + ChildSettings(settings[0].children) + BuildAllowedSettings(settings[1..])
  }

  /** The inner loop of build_allowed_settings over one setting's children. */
  function ChildSettings(children: seq<SettingNode>): seq<string>
    decreases children, 0
  {
    if |children| == 0 then []
    else [children[0].name] + BuildAllowedSettings(children[0].children) + ChildSettings(children[1..])
  }

  /** The walk of build_allowed_settings lists every name at every depth of
      the subtree, once per occurrence and in pre-order: nothing more and
      nothing less. */
  lemma {:induction false} BuildAllowedSettingsIsNames(settings: seq<SettingNode>)
    ensures BuildAllowedSettings(settings) == TreeNames(settings)
    ensures ChildSettings(settings) == TreeNames(settings)
    decreases settings
  {
    if |settings| > 0 {
      BuildAllowedSettingsIsNames(settings[0].children);
      BuildAllowedSettingsIsNames(settings[1..]);
    }
  }

  lemma {:induction false} LeavesNames(names: seq<string>)
    ensures TreeNames(Leaves(names)) == names
  {
    if |names| > 0 {
      LeavesNames(names[1..]);
      assert TreeNames([]) == [];
    }
  }

  /** The settings tree of `mode`, if the map has that key. */
  function SettingsOfMode(modes: seq<ModeSettings>, mode: int): Option<seq<SettingNode>> {
    if |modes| == 0 then None
    else if modes[0].mode == mode then Some(modes[0].settings)
    else SettingsOfMode(modes[1..], mode)
  }

  /** get_allowed_settings: the names allowed for a proctoring mode, empty for
      a mode the map does not know. */
  function AllowedSettings(modes: seq<ModeSettings>, mode: int): seq<string> {
    match SettingsOfMode(modes, mode)
    case None => []
    case Some(settings) => BuildAllowedSettings(settings)
  }

  /** Nothing is allowed when proctoring is off or for an unknown mode;
      exactly the listed names are allowed when it is on. */
  lemma AllowedSettingsOfMapOf(names: seq<string>, mode: int)
    ensures AllowedSettings(SettingsMapOf(names), mode) == if mode == ProctoringEnabled then names else []
  {
    var modes := SettingsMapOf(names);
    assert modes[1..] == [ModeSettings(ProctoringEnabled, Leaves(names))];
    assert modes[1..][1..] == [];
    assert SettingsOfMode(modes[1..][1..], mode) == None;
    assert SettingsOfMode(modes[1..], mode) == if mode == ProctoringEnabled then Some(Leaves(names)) else None;
    BuildAllowedSettingsIsNames(Leaves(names));
    LeavesNames(names);
  }

  /** With the plugin's map: the twelve configuration elements when
      proctoring is on, nothing otherwise. */
  lemma AllowedSettingsByMode(mode: int)
    ensures mode != ProctoringEnabled ==> AllowedSettings(SettingsMap(), mode) == []
    ensures mode == ProctoringEnabled ==> AllowedSettings(SettingsMap(), mode) == ConfigElementNames
  {
    AllowedSettingsOfMapOf(ConfigElementNames, mode);
  }

  // ---------------------------------------------------------------------
  // Capabilities

  /** build_setting_capability_name: only a configuration element has a
      capability; any other name is a coding error. */
  function CapabilityName(elements: seq<string>, name: string): (r: Result<string, SettingsError>)
    ensures r.Ok? <==> name in elements
    ensures r.Ok? ==> r.value == CapabilityPrefix + name
    ensures r.Err? ==> r.error == UnknownSetting(name)
  {
    if name in elements then Ok(CapabilityPrefix + name) else Err(UnknownSetting(name))
  }

  /** build_config_capabilities_to_check: a depth-first search for `name`;
      the result maps the matching setting and each of its ancestors to its
      capability, and is empty when the name is nowhere in the tree. */
  function BuildCapabilities(elements: seq<string>, name: string, settings: seq<SettingNode>): (r: Result<map<string, string>, SettingsError>)
    ensures r.Ok? ==> forall k :: k in r.value ==> r.value[k] == CapabilityPrefix + k
    ensures r.Err? ==> r.error.UnknownSetting? && r.error.name !in elements
    decreases settings
  {
    if |settings| == 0 then Ok(map[])
    else
      var s := settings[0];
      if s.name == name then
        match CapabilityName(elements, s.name)
        case Ok(cap) => Ok(map[s.name := cap])
        case Err(e) => Err(e)
      else
        match BuildCapabilities(elements, name, s.children)
        case Err(e) => Err(e)
        case Ok(found) =>
          if |found| != 0 then
            match CapabilityName(elements, s.name)
            case Ok(cap) => Ok(found[s.name := cap])
            case Err(e) => Err(e)
          else BuildCapabilities(elements, name, settings[1..])
  }

  /** A chain of names from a top-level setting down through children. */
  ghost predicate IsPath(f: seq<SettingNode>, path: seq<string>)
    decreases |path|
  {
    |path| > 0 &&
    exists i :: 0 <= i < |f| && f[i].name == path[0] && (|path| == 1 || IsPath(f[i].children, path[1..]))
  }

  /** A name absent from the tree yields no capability and no error. */
  lemma {:induction false} CapabilitiesOfAbsentSetting(elements: seq<string>, name: string, settings: seq<SettingNode>)
    requires name !in TreeNames(settings)
    ensures BuildCapabilities(elements, name, settings) == Ok(map[])
    decreases settings
  {
    if |settings| > 0 {
      CapabilitiesOfAbsentSetting(elements, name, settings[0].children);
      CapabilitiesOfAbsentSetting(elements, name, settings[1..]);
    }
  }

  /** A name present in the tree yields the capabilities of exactly the
      settings on one path from a top-level setting down to it. */
  lemma {:induction false} CapabilitiesOfPresentSetting(elements: seq<string>, name: string, settings: seq<SettingNode>) returns (path: seq<string>)
    requires name in TreeNames(settings)
    requires BuildCapabilities(elements, name, settings).Ok?
    ensures |path| > 0 && path[|path| - 1] == name
    ensures IsPath(settings, path)
    ensures BuildCapabilities(elements, name, settings).value.Keys == set k | k in path
    decreases settings
  {
    var s := settings[0];
    var r := BuildCapabilities(elements, name, settings);
    if s.name == name {
      path := [name];
      assert path[|path| - 1] == name;
      assert r.value == map[name := CapabilityPrefix + name];
      assert settings[0].name == path[0];
    } else if name in TreeNames(s.children) {
      var sub := CapabilitiesOfPresentSetting(elements, name, s.children);
      CapabilitiesThroughChild(elements, name, settings, sub);
      path := [s.name] + sub;
    } else {
      CapabilitiesOfAbsentSetting(elements, name, s.children);
      assert r == BuildCapabilities(elements, name, settings[1..]);
      path := CapabilitiesOfPresentSetting(elements, name, settings[1..]);
      var i :| 0 <= i < |settings[1..]| && settings[1..][i].name == path[0]
        && (|path| == 1 || IsPath(settings[1..][i].children, path[1..]));
      assert settings[i + 1] == settings[1..][i];
      assert path[|path| - 1] == name;
    }
  }

  /** The step of CapabilitiesOfPresentSetting that descends into the first
      setting's children. */
  lemma CapabilitiesThroughChild(elements: seq<string>, name: string, settings: seq<SettingNode>, sub: seq<string>)
    requires |settings| > 0 && settings[0].name != name
    requires BuildCapabilities(elements, name, settings).Ok?
    requires BuildCapabilities(elements, name, settings[0].children).Ok?
    requires |sub| > 0 && sub[|sub| - 1] == name && IsPath(settings[0].children, sub)
    requires BuildCapabilities(elements, name, settings[0].children).value.Keys == set k | k in sub
    ensures var path := [settings[0].name] + sub;
      && |path| > 0 && path[|path| - 1] == name
      && IsPath(settings, path)
      && BuildCapabilities(elements, name, settings).value.Keys == set k | k in path
  {
    var s := settings[0];
    var found := BuildCapabilities(elements, name, s.children).value;
    assert name in found;
    assert BuildCapabilities(elements, name, settings).value.Keys == found.Keys + {s.name};
    var path := [s.name] + sub;
    PathThroughFirst(settings, sub);
    assert (set k | k in path) == {s.name} + (set k | k in sub);
  }

  /** A path below the first setting's children extends to a path from the
      first setting. */
  lemma PathThroughFirst(settings: seq<SettingNode>, sub: seq<string>)
    requires |settings| > 0 && |sub| > 0 && IsPath(settings[0].children, sub)
    ensures var path := [settings[0].name] + sub;
      path[|path| - 1] == sub[|sub| - 1] && IsPath(settings, path)
  {
    var path := [settings[0].name] + sub;
    assert path[1..] == sub;
    assert settings[0].name == path[0];
  }

  /** In a forest of independent settings, only the matching leaf itself
      needs a capability. */
  lemma {:induction false} CapabilitiesOfLeaves(elements: seq<string>, name: string, names: seq<string>)
    ensures BuildCapabilities(elements, name, Leaves(names)) ==
      if name !in names then Ok(map[])
      else if name in elements then Ok(map[name := CapabilityPrefix + name])
      else Err(UnknownSetting(name))
  {
    if |names| > 0 {
      CapabilitiesOfLeaves(elements, name, names[1..]);
      assert Leaves(names)[1..] == Leaves(names[1..]);
      assert BuildCapabilities(elements, name, []) == Ok(map[]);
    }
  }

  /** The search over modes in can_manage_oqylyq_config_setting: the first mode
      whose tree gives a non-empty result wins. */
  function CapabilitiesForSetting(elements: seq<string>, name: string, modes: seq<ModeSettings>): Result<map<string, string>, SettingsError> {
    if |modes| == 0 then Ok(map[])
    else
      match BuildCapabilities(elements, name, modes[0].settings)
      case Err(e) => Err(e)
      case Ok(found) => if |found| != 0 then Ok(found) else CapabilitiesForSetting(elements, name, modes[1..])
  }

  /** The final checks of can_manage_oqylyq_config_setting on the
      capabilities found: each must be known to the host, and the user must
      hold all of them. */
  function CheckCapabilities(caps: map<string, string>, knownCapabilities: set<string>, granted: set<string>): (r: Result<bool, SettingsError>)
    ensures r.Err? <==> exists k :: k in caps && caps[k] !in knownCapabilities
    ensures r.Err? ==> r.error == CapabilityNotFound
    ensures r.Ok? ==> (r.value <==> forall k :: k in caps ==> caps[k] in granted)
  {
    if exists k :: k in caps && caps[k] !in knownCapabilities then Err(CapabilityNotFound)
    else Ok(caps.Values <= granted)
  }

  /** can_manage_oqylyq_config_setting. */
  function CanManageConfigSetting(name: string, knownCapabilities: set<string>, granted: set<string>): Result<bool, SettingsError> {
    CanManageSetting(ConfigElementNames, SettingsMap(), name, knownCapabilities, granted)
  }

  /** can_manage_oqylyq_config_setting against given elements and map. */
  function CanManageSetting(elements: seq<string>, modes: seq<ModeSettings>, name: string, knownCapabilities: set<string>, granted: set<string>): Result<bool, SettingsError> {
    match CapabilitiesForSetting(elements, name, modes)
    case Err(e) => Err(e)
    case Ok(caps) => CheckCapabilities(caps, knownCapabilities, granted)
  }

  /** For a map of independent settings, a listed name needs exactly its own
      capability and any other name needs none. */
  lemma CapabilitiesForMapOf(names: seq<string>, name: string)
    ensures CapabilitiesForSetting(names, name, SettingsMapOf(names)) ==
      Ok(if name in names then map[name := CapabilityPrefix + name] else map[])
  {
    var modes := SettingsMapOf(names);
    CapabilitiesOfLeaves(names, name, names);
    var expected: map<string, string> := if name in names then map[name := CapabilityPrefix + name] else map[];
    assert modes[1..][1..] == [];
    assert CapabilitiesForSetting(names, name, modes[1..][1..]) == Ok(map[]);
    assert modes[1..][0].settings == Leaves(names);
    assert CapabilitiesForSetting(names, name, modes[1..]) == Ok(expected);
    assert BuildCapabilities(names, name, modes[0].settings) == Ok(map[]);
  }

  /** A listed setting may be managed exactly when the host knows its
      capability and the user holds it; any other name (the proctoring
      selector, a typo) may be managed whatever the user holds. */
  lemma CanManageSettingCases(names: seq<string>, name: string, knownCapabilities: set<string>, granted: set<string>)
    ensures CanManageSetting(names, SettingsMapOf(names), name, knownCapabilities, granted) ==
      if name !in names then Ok(true)
      else if CapabilityPrefix + name in knownCapabilities then Ok(CapabilityPrefix + name in granted)
      else Err(CapabilityNotFound)
  {
    CapabilitiesForMapOf(names, name);
    if name in names {
      var cap := CapabilityPrefix + name;
      assert name in map[name := cap];
    }
  }

  /** With the plugin's map, the twelve configuration elements are guarded
      by their own capabilities and any other name is not guarded. */
  lemma CanManageConfigSettingCases(name: string, knownCapabilities: set<string>, granted: set<string>)
    ensures CanManageConfigSetting(name, knownCapabilities, granted) ==
      if name !in ConfigElementNames then Ok(true)
      else if CapabilityPrefix + name in knownCapabilities then Ok(CapabilityPrefix + name in granted)
      else Err(CapabilityNotFound)
  {
    CanManageSettingCases(ConfigElementNames, name, knownCapabilities, granted);
  }

  /** can_configure_oqylyq. */
  predicate CanConfigure(granted: set<string>) {
    ConfigureCapability in granted
  }

  /** is_conflicting_permissions: every path of the source returns false. */
  predicate IsConflictingPermissions(quizid: int) {
    false
  }

  /** is_oqylyq_settings_locked: a forced `return false` precedes the check
      for existing attempts, so settings are never locked. */
  function IsSettingsLocked(quizid: int): (r: bool)
    ensures !r
  {
    false
  }

  // ---------------------------------------------------------------------
  // Hide rules of the quiz form

  /** hideif_rule: hide `element` when `dependantName` compares by
      `condition` to `dependantValue`. */
  datatype HideIf = HideIf(element: string, dependantName: string, condition: string, dependantValue: int)

  /** Rules for each direct child of `parent` under mode `mode`. */
  function ChildRules(mode: int, parent: string, children: seq<SettingNode>): seq<HideIf> {
    if |children| == 0 then []
    else [ HideIf(children[0].name, ProctoringField, "noteq", mode),
           HideIf(children[0].name, parent, "eq", 0) ] + ChildRules(mode, parent, children[1..])
  }

  /** Rules for the top-level settings of one mode and their direct children. */
  function SettingRules(mode: int, settings: seq<SettingNode>): seq<HideIf> {
    if |settings| == 0 then []
    else [HideIf(settings[0].name, ProctoringField, "noteq", mode)]
         + ChildRules(mode, settings[0].name, settings[0].children)
         + SettingRules(mode, settings[1..])
  }

  /** The rules of get_quiz_hideifs in the order the loops create them. */
  function RuleList(modes: seq<ModeSettings>): seq<HideIf> {
    if |modes| == 0 then [] else SettingRules(modes[0].mode, modes[0].settings) + RuleList(modes[1..])
  }

  /** `$hideifs[$rule->element][] = $rule` over a stream of rules. */
  function GroupByElement(rules: seq<HideIf>): map<string, seq<HideIf>>
    decreases |rules|
  {
    if |rules| == 0 then map[]
    else
      var g := GroupByElement(rules[..|rules| - 1]);
      var r := rules[|rules| - 1];
      g[r.element := (if r.element in g then g[r.element] else []) + [r]]
  }

  /** get_quiz_hideifs. */
  function QuizHideIfs(): map<string, seq<HideIf>> {
    GroupByElement(RuleList(SettingsMap()))
  }

  /** The rules about `element`, in order. */
  function RulesAbout(rules: seq<HideIf>, element: string): seq<HideIf> {
    if |rules| == 0 then []
    else (if rules[0].element == element then [rules[0]] else []) + RulesAbout(rules[1..], element)
  }

  lemma {:induction false} RulesAboutSnoc(rules: seq<HideIf>, r: HideIf, element: string)
    ensures RulesAbout(rules + [r], element) == RulesAbout(rules, element) + (if r.element == element then [r] else [])
  {
    if |rules| > 0 {
      assert (rules + [r])[1..] == rules[1..] + [r];
      RulesAboutSnoc(rules[1..], r, element);
    }
  }

  /** Grouping keeps every rule under its own element, in order, and adds no
      element without a rule. */
  lemma {:induction false} GroupByElementSpec(rules: seq<HideIf>, element: string)
    ensures element in GroupByElement(rules) <==> RulesAbout(rules, element) != []
    ensures element in GroupByElement(rules) ==> GroupByElement(rules)[element] == RulesAbout(rules, element)
    decreases |rules|
  {
    if |rules| > 0 {
      var init := rules[..|rules| - 1];
      var r := rules[|rules| - 1];
      assert rules == init + [r];
      GroupByElementSpec(init, element);
      RulesAboutSnoc(init, r, element);
    }
  }

  /** The rules one top-level setting of mode `mode` gives rise to. */
  ghost predicate RuleOfSetting(mode: int, s: SettingNode, rule: HideIf) {
    || rule == HideIf(s.name, ProctoringField, "noteq", mode)
    || exists c :: 0 <= c < |s.children| && RuleOfChild(mode, s.name, s.children[c], rule)
  }

  /** The two rules of a child: hidden when proctoring is not its mode, and
      when its parent is 0. */
  predicate RuleOfChild(mode: int, parent: string, child: SettingNode, rule: HideIf) {
    || rule == HideIf(child.name, ProctoringField, "noteq", mode)
    || rule == HideIf(child.name, parent, "eq", 0)
  }

  /** The rules the settings map calls for: each top-level setting is hidden
      when proctoring is not its mode; each direct child likewise, and also
      when its parent is 0. */
  ghost predicate ExpectedRule(modes: seq<ModeSettings>, rule: HideIf) {
    exists i, j :: 0 <= i < |modes| && 0 <= j < |modes[i].settings| && RuleOfSetting(modes[i].mode, modes[i].settings[j], rule)
  }

  lemma {:induction false} ChildRulesSpec(mode: int, parent: string, children: seq<SettingNode>, rule: HideIf)
    ensures rule in ChildRules(mode, parent, children) <==>
      exists c :: 0 <= c < |children| && RuleOfChild(mode, parent, children[c], rule)
  {
    if |children| > 0 {
      ChildRulesSpec(mode, parent, children[1..], rule);
      if exists c :: 0 <= c < |children[1..]| && RuleOfChild(mode, parent, children[1..][c], rule) {
        var c :| 0 <= c < |children[1..]| && RuleOfChild(mode, parent, children[1..][c], rule);
        assert children[c + 1] == children[1..][c];
      }
      if exists c :: 0 <= c < |children| && RuleOfChild(mode, parent, children[c], rule) {
        var c :| 0 <= c < |children| && RuleOfChild(mode, parent, children[c], rule);
        if c > 0 {
          assert children[1..][c - 1] == children[c];
        }
      }
    }
  }

  lemma {:induction false} SettingRulesSpec(mode: int, settings: seq<SettingNode>, rule: HideIf)
    ensures rule in SettingRules(mode, settings) <==>
      exists j :: 0 <= j < |settings| && RuleOfSetting(mode, settings[j], rule)
  {
    if |settings| > 0 {
      var s := settings[0];
      SettingRulesSpec(mode, settings[1..], rule);
      ChildRulesSpec(mode, s.name, s.children, rule);
      if exists j :: 0 <= j < |settings[1..]| && RuleOfSetting(mode, settings[1..][j], rule) {
        var j :| 0 <= j < |settings[1..]| && RuleOfSetting(mode, settings[1..][j], rule);
        assert settings[j + 1] == settings[1..][j];
      }
      if exists j :: 0 <= j < |settings| && RuleOfSetting(mode, settings[j], rule) {
        var j :| 0 <= j < |settings| && RuleOfSetting(mode, settings[j], rule);
        if j > 0 {
          assert settings[1..][j - 1] == settings[j];
        }
      }
    }
  }

  /** The generated rules are exactly the ones the settings map calls for. */
  lemma {:induction false} RuleListSpec(modes: seq<ModeSettings>, rule: HideIf)
    ensures rule in RuleList(modes) <==> ExpectedRule(modes, rule)
  {
    if |modes| > 0 {
      RuleListSpec(modes[1..], rule);
      SettingRulesSpec(modes[0].mode, modes[0].settings, rule);
      if ExpectedRule(modes[1..], rule) {
        var i, j :| 0 <= i < |modes[1..]| && 0 <= j < |modes[1..][i].settings| && RuleOfSetting(modes[1..][i].mode, modes[1..][i].settings[j], rule);
        assert modes[i + 1] == modes[1..][i];
      }
      if ExpectedRule(modes, rule) {
        var i, j :| 0 <= i < |modes| && 0 <= j < |modes[i].settings| && RuleOfSetting(modes[i].mode, modes[i].settings[j], rule);
        if i > 0 {
          assert modes[1..][i - 1] == modes[i];
        }
      }
    }
  }

  /** Independent settings get one rule each, in order. */
  lemma {:induction false} LeafRules(mode: int, names: seq<string>)
    ensures |SettingRules(mode, Leaves(names))| == |names|
    ensures forall i :: 0 <= i < |names| ==>
      SettingRules(mode, Leaves(names))[i] == HideIf(names[i], ProctoringField, "noteq", mode)
  {
    if |names| > 0 {
      LeafRules(mode, names[1..]);
      assert Leaves(names)[1..] == Leaves(names[1..]);
      assert ChildRules(mode, names[0], []) == [];
    }
  }

  predicate Distinct(names: seq<string>) {
    forall i, j :: 0 <= i < j < |names| ==> names[i] != names[j]
  }

  /** Grouping the rules of independent, distinctly named settings gives
      each setting its single rule. */
  lemma GroupLeafRules(mode: int, names: seq<string>, n: string)
    requires Distinct(names)
    ensures n in GroupByElement(SettingRules(mode, Leaves(names))) <==> n in names
    ensures n in names ==> GroupByElement(SettingRules(mode, Leaves(names)))[n] == [HideIf(n, ProctoringField, "noteq", mode)]
  {
    var rules := SettingRules(mode, Leaves(names));
    LeafRules(mode, names);
    GroupByElementSpec(rules, n);
    if n in names {
      var i :| 0 <= i < |names| && names[i] == n;
      forall k | 0 <= k < |rules| && k != i ensures rules[k].element != n {
        assert rules[k].element == names[k];
      }
      RulesAboutOfDistinct(rules, i, n);
    } else {
      RulesAboutNone(rules, n);
    }
  }

  /** For a map of independent, distinctly named settings, each setting
      gets exactly one rule, hiding it unless proctoring is 1, and no other
      element gets a rule. */
  lemma HideIfsOfMapOf(names: seq<string>, n: string)
    requires Distinct(names)
    ensures n in GroupByElement(RuleList(SettingsMapOf(names))) <==> n in names
    ensures n in names ==>
      GroupByElement(RuleList(SettingsMapOf(names)))[n] == [HideIf(n, ProctoringField, "noteq", ProctoringEnabled)]
  {
    var modes := SettingsMapOf(names);
    assert modes[1..][1..] == [];
    assert RuleList(modes[1..]) == SettingRules(ProctoringEnabled, Leaves(names)) + RuleList(modes[1..][1..]);
    assert RuleList(modes) == SettingRules(ProctoringEnabled, Leaves(names));
    GroupLeafRules(ProctoringEnabled, names, n);
  }

  /** With the plugin's map each of the twelve elements gets exactly one
      rule: hide it unless proctoring is 1; no other element gets a rule. */
  lemma QuizHideIfsValues(n: string)
    ensures n in QuizHideIfs() <==> n in ConfigElementNames
    ensures n in ConfigElementNames ==> QuizHideIfs()[n] == [HideIf(n, ProctoringField, "noteq", ProctoringEnabled)]
  {
    QuizHideIfsOfMap();
    ConfigElementsDistinct();
    HideIfsOfMapOf(ConfigElementNames, n);
  }

  lemma QuizHideIfsOfMap()
    ensures QuizHideIfs() == GroupByElement(RuleList(SettingsMapOf(ConfigElementNames)))
  {
    assert SettingsMap() == SettingsMapOf(ConfigElementNames);
  }

  lemma ConfigElementsDistinct()
    ensures Distinct(ConfigElementNames)
  {
    ConfigElementsShape();
  }

  lemma {:induction false} RulesAboutNone(rules: seq<HideIf>, element: string)
    requires forall k :: 0 <= k < |rules| ==> rules[k].element != element
    ensures RulesAbout(rules, element) == []
  {
    if |rules| > 0 {
      RulesAboutNone(rules[1..], element);
    }
  }

  lemma {:induction false} RulesAboutOfDistinct(rules: seq<HideIf>, i: nat, element: string)
    requires i < |rules| && rules[i].element == element
    requires forall k :: 0 <= k < |rules| && k != i ==> rules[k].element != element
    ensures RulesAbout(rules, element) == [rules[i]]
  {
    if i == 0 {
      RulesAboutNone(rules[1..], element);
    } else {
      RulesAboutOfDistinct(rules[1..], i - 1, element);
    }
  }

  // ---------------------------------------------------------------------
  // Filtering a submitted form into the plugin's settings

  /** filter_by_prefix: keep the properties whose name starts with the
      plugin prefix, in order. */
  function FilterByPrefix(o: Object): (r: Object)
    ensures UniqueNames(r)
    decreases |o|
  {
    if |o| == 0 then []
    else
      var acc := FilterByPrefix(o[..|o| - 1]);
      var f := o[|o| - 1];
      if StartsWith(f.name, Prefix) then Set(acc, f.name, f.value) else acc
  }

  /** Exactly the prefixed properties survive, with their values. */
  lemma {:induction false} FilterByPrefixGet(o: Object, k: string)
    requires UniqueNames(o)
    ensures Get(FilterByPrefix(o), k) == if StartsWith(k, Prefix) then Get(o, k) else None
    decreases |o|
  {
    if |o| > 0 {
      GetLast(o, k);
      FilterByPrefixGet(o[..|o| - 1], k);
    }
  }

  /** `isset($o->oqylyq_proctoring)`: present and not null. */
  predicate ProctoringIsSet(o: Object) {
    Get(o, ProctoringField).Some? && Get(o, ProctoringField).value != Null
  }

  /** A looked-up value, nulled when its name is not allowed. */
  function Restrict(v: Option<Value>, name: string, allowed: seq<string>): Option<Value> {
    match v
    case None => None
    case Some(x) => Some(if name in allowed then x else Null)
  }

  /** The loop of filter_by_settings_map, appending to `init`. */
  function RestrictToAllowed(o: Object, allowed: seq<string>, init: Object): (r: Object)
    ensures UniqueNames(init) ==> UniqueNames(r)
    decreases |o|
  {
    if |o| == 0 then init
    else
      var f := o[|o| - 1];
      Set(RestrictToAllowed(o[..|o| - 1], allowed, init), f.name, if f.name in allowed then f.value else Null)
  }

  lemma {:induction false} RestrictToAllowedGet(o: Object, allowed: seq<string>, init: Object, k: string)
    requires UniqueNames(o)
    ensures Get(RestrictToAllowed(o, allowed, init), k) ==
      if k in Names(o) then Restrict(Get(o, k), k, allowed) else Get(init, k)
    decreases |o|
  {
    if |o| > 0 {
      GetLast(o, k);
      NamesSnoc(o[..|o| - 1], o[|o| - 1]);
      assert o == o[..|o| - 1] + [o[|o| - 1]];
      RestrictToAllowedGet(o[..|o| - 1], allowed, init, k);
    }
  }

  /** filter_by_settings_map: with the proctoring mode unset or null the
      object is returned as is; otherwise the mode comes first and every
      other property not allowed for that mode is set to null. */
  function FilterBySettingsMap(modes: seq<ModeSettings>, o: Object): (r: Object)
    ensures UniqueNames(o) ==> UniqueNames(r)
  {
    if !ProctoringIsSet(o) then o
    else
      var p := Get(o, ProctoringField).value;
      assert UniqueNames([Field(ProctoringField, p)]);
      RestrictToAllowed(Remove(o, ProctoringField), AllowedSettings(modes, IntCast(p)), [Field(ProctoringField, p)])
  }

  /** Same property names; the mode keeps its value; a property allowed for
      the mode keeps its value and any other becomes null. */
  lemma FilterBySettingsMapGet(modes: seq<ModeSettings>, o: Object, k: string)
    requires UniqueNames(o)
    ensures !ProctoringIsSet(o) ==> FilterBySettingsMap(modes, o) == o
    ensures ProctoringIsSet(o) ==>
      Get(FilterBySettingsMap(modes, o), k) ==
        if k == ProctoringField then Get(o, k)
        else Restrict(Get(o, k), k, AllowedSettings(modes, IntCast(Get(o, ProctoringField).value)))
  {
    if ProctoringIsSet(o) {
      var p := Get(o, ProctoringField).value;
      var rest := Remove(o, ProctoringField);
      RestrictToAllowedGet(rest, AllowedSettings(modes, IntCast(p)), [Field(ProctoringField, p)], k);
    }
  }

  /** `preg_replace('/^oqylyq_/', '', $name)`: at most one leading prefix. */
  function StripPrefix(name: string): string {
    if StartsWith(name, Prefix) then name[|Prefix|..] else name
  }

  /** strip_all_prefixes: rename every property; a later property wins when
      two names strip to the same one. */
  function StripAllPrefixes(o: Object): (r: Object)
    ensures UniqueNames(r)
    decreases |o|
  {
    if |o| == 0 then []
    else
      var f := o[|o| - 1];
      Set(StripAllPrefixes(o[..|o| - 1]), StripPrefix(f.name), f.value)
  }

  /** When every name carries the prefix, stripping is a renaming: the
      property `k` of the result is the property `oqylyq_k` of the input. */
  lemma {:induction false} StripAllPrefixesGet(o: Object, k: string)
    requires UniqueNames(o)
    requires forall i :: 0 <= i < |o| ==> StartsWith(o[i].name, Prefix)
    ensures Get(StripAllPrefixes(o), k) == Get(o, Prefix + k)
    decreases |o|
  {
    if |o| > 0 {
      var f := o[|o| - 1];
      GetLast(o, Prefix + k);
      StripAllPrefixesGet(o[..|o| - 1], k);
      assert f.name == Prefix + StripPrefix(f.name);
    }
  }

  /** Without the prefix on both names, two properties can collide and the
      later one wins. */
  lemma StripAllPrefixesCollision()
    ensures StripAllPrefixes([Field("x", IntVal(1)), Field("oqylyq_x", IntVal(2))]) == [Field("x", IntVal(2))]
  {
    var o := [Field("x", IntVal(1)), Field("oqylyq_x", IntVal(2))];
    assert o[..1] == [Field("x", IntVal(1))];
    assert o[..1][..0] == [];
    assert StripPrefix("oqylyq_x") == "x";
  }

  /** filter_plugin_settings against a given settings map. */
  function FilterSettings(modes: seq<ModeSettings>, o: Object): Object {
    StripAllPrefixes(FilterBySettingsMap(modes, FilterByPrefix(o)))
  }

  /** filter_plugin_settings. */
  function FilterPluginSettings(o: Object): Object {
    FilterSettings(SettingsMap(), o)
  }

  /** Every property left after the prefix and settings-map filters carries
      the prefix. */
  lemma FilteredNamesPrefixed(modes: seq<ModeSettings>, o: Object)
    requires UniqueNames(o)
    ensures forall i :: 0 <= i < |FilterBySettingsMap(modes, FilterByPrefix(o))| ==>
      StartsWith(FilterBySettingsMap(modes, FilterByPrefix(o))[i].name, Prefix)
  {
    var a := FilterByPrefix(o);
    var b := FilterBySettingsMap(modes, a);
    forall i | 0 <= i < |b| ensures StartsWith(b[i].name, Prefix) {
      NameAt(b, i);
      FilterBySettingsMapGet(modes, a, b[i].name);
      FilterByPrefixGet(o, b[i].name);
    }
  }

  /** Property `k` of the result is the form's `oqylyq_k`; when the form sets
      a proctoring mode, the mode is kept and every other setting the mode
      does not allow is null. */
  lemma FilterSettingsGet(modes: seq<ModeSettings>, o: Object, k: string)
    requires UniqueNames(o)
    ensures Get(FilterSettings(modes, o), k) ==
      var mode := Get(o, ProctoringField);
      if mode.None? || mode.value == Null then Get(o, Prefix + k)
      else if Prefix + k == ProctoringField then mode
      else Restrict(Get(o, Prefix + k), Prefix + k, AllowedSettings(modes, IntCast(mode.value)))
  {
    var a := FilterByPrefix(o);
    FilterByPrefixGet(o, ProctoringField);
    FilterByPrefixGet(o, Prefix + k);
    FilterBySettingsMapGet(modes, a, Prefix + k);
    FilteredNamesPrefixed(modes, o);
    StripAllPrefixesGet(FilterBySettingsMap(modes, a), k);
  }

  /** The mode itself always passes the filters unchanged. */
  lemma FilterSettingsMode(modes: seq<ModeSettings>, o: Object)
    requires UniqueNames(o)
    ensures Get(FilterSettings(modes, o), "proctoring") == Get(o, ProctoringField)
  {
    assert Prefix + "proctoring" == ProctoringField;
    FilterSettingsGet(modes, o, "proctoring");
  }

  /** With the plugin's map: when proctoring is on the twelve configuration
      elements keep their values, and under any other mode every setting but
      the mode itself is null. */
  lemma FilterPluginSettingsGet(o: Object, k: string)
    requires UniqueNames(o)
    ensures Get(FilterPluginSettings(o), k) ==
      var mode := Get(o, ProctoringField);
      if mode.None? || mode.value == Null then Get(o, Prefix + k)
      else if Prefix + k == ProctoringField then mode
      else Restrict(Get(o, Prefix + k), Prefix + k,
                    if IntCast(mode.value) == ProctoringEnabled then ConfigElementNames else [])
  {
    FilterSettingsGet(SettingsMap(), o, k);
    var mode := Get(o, ProctoringField);
    if mode.Some? {
      AllowedSettingsByMode(IntCast(mode.value));
    }
  }

  /** Filtering is not idempotent: a second pass drops the unprefixed keys
      the first pass produced. */
  lemma FilterSettingsNotIdempotent(modes: seq<ModeSettings>)
    ensures var once := FilterSettings(modes, [Field(ProctoringField, IntVal(1))]);
      once == [Field("proctoring", IntVal(1))] && FilterSettings(modes, once) == []
  {
    var o := [Field(ProctoringField, IntVal(1))];
    assert o[..0] == [];
    assert FilterByPrefix(o) == o;
    assert Remove(o, ProctoringField) == [];
    assert UniqueNames(o);
    assert FilterBySettingsMap(modes, o) == o;
    assert StripPrefix(ProctoringField) == "proctoring";
    assert StripAllPrefixes(o) == [Field("proctoring", IntVal(1))];
    var once := [Field("proctoring", IntVal(1))];
    assert once[..0] == [];
    assert !StartsWith("proctoring", Prefix) by {
      assert "proctoring"[0] != Prefix[0];
    }
    assert FilterByPrefix(once) == [];
    assert !ProctoringIsSet([]);
  }

  /** add_prefix: prefix a name unless it already carries the prefix. */
  function AddPrefix(name: string): (r: string)
    ensures StartsWith(r, Prefix)
  {
    if StartsWith(name, Prefix) then name else Prefix + name
  }

  /** Adding the prefix is idempotent and undoes stripping a single prefix;
      stripping undoes adding it. */
  lemma AddPrefixProperties(name: string)
    ensures AddPrefix(AddPrefix(name)) == AddPrefix(name)
    ensures StartsWith(name, Prefix) ==> AddPrefix(name) == name
    ensures !StartsWith(name, Prefix) ==> StripPrefix(AddPrefix(name)) == name
    ensures StartsWith(name, Prefix) && !StartsWith(StripPrefix(name), Prefix) ==> AddPrefix(StripPrefix(name)) == name
  {
    if !StartsWith(name, Prefix) {
      assert (Prefix + name)[|Prefix|..] == name;
    } else {
      assert name == Prefix + name[|Prefix|..];
    }
  }
}

=== FILE: wrappers.dfy ===
/** Optional values and results-or-errors, used for PHP's `null` returns and
    thrown exceptions throughout the model. */
module Wrappers {

  /** A value that may be absent (PHP `null`). */
  datatype Option<+T> = None | Some(value: T) {

    /** Returns the value, or `default` when absent. */
    function GetOr(default: T): T {
      match this
      case Some(v) => v
      case None => default
    }
  }

  /** Either a result or the error a PHP method would have thrown. */
  datatype Result<+T, +E> = Ok(value: T) | Err(error: E) {

    predicate IsFailure() {
      Err?
    }

    function PropagateFailure<U>(): Result<U, E>
      requires Err?
    {
      Err(error)
    }

    function Extract(): T
      requires Ok?
    {
      value
    }
  }
}
